=== FILE: README.md ===
# Critical Path Method scheduler, modelled in Dafny

`CriticalPath.java` reads an activity-on-node graph stored as an adjacency matrix, then computes a Critical Path Method schedule. For every activity it prints:
- its early finish ("EC");
- its late finish ("LC");
- its slack (late start minus early start).

The lines are printed sorted by name. This project models the program from the decoded matrix onward.

| File | Module | What it models |
|---|---|---|
| `matrix.dfy` | `Matrix` | `parseArray`. The flat, row-by-row list of matrix entries becomes, per row, the columns holding an edge (row 0 never gets any) and, per column, the value of its last edge entry. |
| `graph.dfy` | `Graph` | The node-assembly loop of `main`, the graph vocabulary (ranking, acyclicity, walks) and `Node.isDependent`. |
| `cpm.dfy` | `Cpm` | What the passes compute, stated on plain values (see below). |
| `critical_path.dfy` | `CriticalPath` | The nodes and the passes themselves (see below). |
| `order.dfy` | `NameOrder` | The `compareTo` order on names and the sort of the finished nodes by name. |
| `driver.dfy` | `Driver` | `main` from the decoded matrix to the printed lines. |
| `scenarios.dfy` | `Scenarios` | Small graphs worked through the definitions. |

**`Cpm` states what the passes compute on plain values.** It covers:
- the relaxation rule for critical costs;
- the horizon and the late times;
- the early times;
- the theorems linking all of them to the longest walks of the dependency graph. The horizon is the longest walk. Slack is never negative. A node has zero slack exactly when it lies on a walk as long as the horizon.

**`CriticalPath` holds the nodes and the passes.** The `Node` objects form an arena, class `Activities`:
- node `i` is the i-th declared name;
- `dependsOn` holds sets of node indices;
- every field that the passes update in place (`critCost`, `earlyStart`, `earlyFinish`, `lateStart`, `lateFinish`) is an array indexed by node.

The methods of `Activities` are the passes of `criticalPath`: relaxation with cycle detection, `maxCost`, `initials` and `calcEarly`/`setEarly`. The sort by name is the function `NameOrder.SortByName`. Each method is proved against the predicates of `Cpm`.

**Identity of names.** The Java code compares name *objects* with `==` in two places: when it resolves dependencies (line 47) and when it picks the node whose late times are pinned to 0 (line 243). Each dependency name that `parseArray` stores is the very object of its column's name. So the model resolves a dependency in column `c` to node `c`, and the pinned node is node 0. This holds even when two nodes carry the same text. `Graph.LookupByText` shows that looking names up by text would resolve every column to its own node exactly when the names are distinct.

**Directions.** The Java code reads row `i`'s edge columns as the nodes `i` depends on, and the model keeps that reading:
- critical costs accumulate along `dependsOn`;
- the "initial" nodes are those no node depends on;
- early times are pushed from the initial nodes *into* the dependsOn sets.

**The pinned node can have negative slack.** Node 0's late times are forced to 0, while its early start is whatever the propagation left. Its slack is therefore minus its early start, which is negative as soon as a node that depends on node 0 finishes after time 0 (`CriticalPath.Activities.RootRow`). When no duration is negative, every other node's slack is never negative (`CriticalPath.Activities.ReportedRow`).

**Nondeterminism.** `HashSet` iteration order is unspecified. The loops over a set in `ToArray`, `MaxDepCrit`, `Pass`, `SetEarly`, `CalcEarly` and the inner loop of `Initials` pick their next element with `:|`, so the proofs hold for every order. `MaxCost` and the outer loop of `Initials` walk the nodes in index order instead. `Cpm.CritUnique` shows that the critical costs do not depend on the order of the sweeps in `Pass`, and `Cpm.EarlyUnique` that the early times do not depend on the order in which `CalcEarly` and `SetEarly` visit the nodes.

**Definitions.** Three source methods are modelled by definitions that carry no contract of their own; the lemmas in the table below state their properties. `Node.isDependent` (lines 312-322) is the predicate `Graph.IsDependent`. The `compareTo` comparator handed to `Arrays.sort` (line 105) is the predicate `NameOrder.NameLe`. `Node.toStringArray` (lines 346-349) is the function `CriticalPath.Activities.ToStringArray`, whose results `CriticalPath.Activities.Lines`, `ReportedRow` and `RootRow` describe.

## Model

| member | source | states |
|---|---|---|
| Matrix.ParseArray | CriticalPath.java:153-172 | It fails exactly when fewer than n·n entries are supplied. Otherwise row 0 has no dependencies. Every other row lists its edge columns (entries other than -1) in column order. Every column's value is that of the last row with an edge in that column, or 0 when there is none. |
| Matrix.ReadRow | CriticalPath.java:160-170 | One pass of the inner loop. The running index advances by n. Row i gets exactly its edge columns, no other row changes, and each column's value accounts for row i. |
| Matrix.ColumnsSpec | CriticalPath.java:162-166 | The dependency list of a row is strictly increasing. A column is in it if and only if the row's entry in that column is an edge. |
| Matrix.LastValueSpec | CriticalPath.java:162-168 | A column's value is 0 when no row has an edge in that column. Otherwise it is the entry of some edge row, and no later row has an edge there. |
| Graph.Assemble | CriticalPath.java:43-54 | Every node's dependsOn set holds, for each of its dependency name objects, the node of that column, or null (-1) when the name belongs to no node. |
| Graph.Lookup | CriticalPath.java:46-50 | The resolving scan, read as comparing names by text, keeps the last match. It finds -1 exactly when the text is no node's name. Otherwise it finds a node with that name, and no later node carries it. |
| Graph.LookupByText | CriticalPath.java:47 | Resolving by text gives every column its own node if and only if the declared names are pairwise distinct. |
| Driver.ParsedGraph | CriticalPath.java:43-52 | After parseArray, assembly leaves no dependency unresolved. The dependsOn sets are exactly the matrix's edge columns, and row 0 has none. |
| Driver.Run | CriticalPath.java:37-56 | A run fails reading the matrix exactly when the matrix is too short. It stops with "Negative Cycle" exactly when the matrix's graph has no ranking. Otherwise it prints one line per declared node. The lines are in name order and carry the declared names with their multiplicities. |
| Driver.RowsInNameOrder | CriticalPath.java:97-107 | Lines for every node once, in sorted node order, have exactly the declared names (as a multiset), in ascending name order. |
| Driver.NamesOfPermutation | CriticalPath.java:97 | Listing the same nodes in another order lists the same multiset of names. |
| CriticalPath.Activities.constructor | CriticalPath.java:280-284 | A new node has its name and cost. Its early finish is -1 and every other time is 0. |
| CriticalPath.ToArray | CriticalPath.java:97 | `done.toArray` lists every member of the set exactly once. |
| CriticalPath.Activities.MaxDepCrit | CriticalPath.java:77-82 | The result is at least 0 and at least every dependency's critical cost. It is 0 or equal to one of those costs. |
| CriticalPath.Activities.Pass | CriticalPath.java:73-88 | One sweep keeps done/remaining a partition of the nodes. Every done node has all its dependencies done and obeys the relaxation rule. Every node that was done before the sweep, and every node still remaining after it, keeps its critical cost; only the nodes the sweep moves get new ones. A sweep that makes progress strictly shrinks `remaining`. One that does not leaves done, remaining and every critical cost as they were, and every remaining node then has a dependency that is not done. |
| CriticalPath.Activities.Relax | CriticalPath.java:68-92 | The passes stop with the failure if and only if the graph admits no ranking (a cycle, or a dependency that is not a node). Otherwise every node is done and every critical cost obeys the relaxation rule. |
| Cpm.MoveToDone | CriticalPath.java:76-86 | Moving a node whose dependencies are all done, with critical cost = its cost + the largest dependency critical cost (from 0), keeps the pass invariant. |
| Graph.StuckNotAcyclic | CriticalPath.java:89-91 | When a sweep moves nothing while nodes remain, no ranking of the graph exists. |
| Cpm.CritBoundsWalks | CriticalPath.java:76-83 | No walk starting at a node costs more than that node's critical cost. |
| Cpm.CritAttained | CriticalPath.java:76-83 | On a ranked graph, some walk starting at each node costs exactly its critical cost. |
| Cpm.CritUnique | CriticalPath.java:72-88 | On a ranked graph the relaxation rule has one solution, whatever order the sweeps visit the nodes in. |
| CriticalPath.Activities.SetLatest | CriticalPath.java:327-330 | Only node v's late times change: late start = maxCost - critCost and late finish = late start + cost. |
| CriticalPath.Activities.SetLatestStart | CriticalPath.java:335-338 | Only node v's late times change, and both become 0. |
| CriticalPath.Activities.MaxCost | CriticalPath.java:225-247 | maxCost is the larger of -1 (the search's starting value) and the largest critical cost, so it is -1 when there are no nodes or every critical cost is below -1. Every node's late times are horizon-relative, except node 0's, which are 0/0. |
| Cpm.LateTimesBounded | CriticalPath.java:327-330 | Late start is never negative, and off node 0 late finish is late start + cost. |
| Cpm.HorizonIsLongestWalk | CriticalPath.java:226-232 | With at least one node and durations that are not negative, no walk costs more than maxCost and some walk costs exactly maxCost. |
| Cpm.HorizonBoundsWalks | CriticalPath.java:226-232 | Whatever the durations, no walk costs more than maxCost. |
| CriticalPath.Activities.Initials | CriticalPath.java:210-218 | The result holds exactly the nodes that occur in no node's dependsOn set. |
| Graph.InitialNotDependent | CriticalPath.java:212-216 | No node depends, directly or transitively, on an initial node. |
| Graph.ReachedFromInitial | CriticalPath.java:180-186 | On a ranked graph, every node is initial or some initial node depends on it. |
| CriticalPath.Activities.SetEarly | CriticalPath.java:193-202 | Only the dependencies of the node (direct or transitive) change. No early start ever decreases, and a node whose times changed ends with early finish = early start + its cost. With durations that are not negative, early finishes grow too, the propagation invariant holds, and the node and everything it depends on are settled. |
| Cpm.WriteKeepsInv | CriticalPath.java:196-199 | A write of an incoming finish that is at least the current early start keeps the invariant. Afterwards early finish = early start + cost, and nothing decreases. |
| CriticalPath.Activities.CalcEarly | CriticalPath.java:180-186 | Whatever the durations, every initial node ends with early start 0 and early finish equal to its cost. From the initial nodes, with durations that are not negative, every node ends with its final early times. Each early start is 0 or a dependent's early finish and at least every dependent's early finish, and each early finish is early start + cost. |
| Cpm.FinalEarly | CriticalPath.java:193-202 | Once every node is written and has pushed its finish into its dependencies, the early times are final. |
| Cpm.InitialEarly | CriticalPath.java:182-183 | An initial node starts at 0 and finishes at its cost. |
| Cpm.EarlyBoundsWalks | CriticalPath.java:193-202 | No walk ending at a node costs more than its early finish. |
| Cpm.EarlyAttained | CriticalPath.java:193-202 | On a ranked graph, some walk ending at each node costs exactly its early finish. |
| Cpm.EarlyUnique | CriticalPath.java:180-202 | Final early times are unique, whatever order initial nodes and dependsOn sets are visited in. |
| CriticalPath.Activities.CriticalPath | CriticalPath.java:67-111 | The failure is thrown if and only if the graph has no ranking. Otherwise it returns every node exactly once, sorted by name, with critical costs, horizon, late times and (for durations that are not negative) early times as specified. |
| NameOrder.SortByName | CriticalPath.java:103-107 | The result is a permutation of the input, in ascending name order. |
| NameOrder.InsertSorted | CriticalPath.java:103-107 | Inserting into a name-sorted list keeps it sorted. |
| NameOrder.NameLeIsLexLe | CriticalPath.java:105 | The comparison agrees with lexicographic order: a prefix sorts first, otherwise the first differing character decides. |
| NameOrder.NameLeTotal | CriticalPath.java:105 | Any two names are comparable. |
| NameOrder.NameLeTransitive | CriticalPath.java:105 | The name order is transitive. |
| NameOrder.NameLeAntisymmetric | CriticalPath.java:105 | Names that sort no later than each other are equal. |
| Graph.IsDependentIffPath | CriticalPath.java:312-322 | isDependent(v, x) holds if and only if there is a walk of length at least 2 from v to x along dependsOn. |
| Graph.DependentRankLower | CriticalPath.java:312-322 | Everything a node depends on is a node of strictly lower rank, so isDependent terminates. |
| Graph.DependentTransitive | CriticalPath.java:312-322 | isDependent is transitive. |
| CriticalPath.Activities.Lines | CriticalPath.java:257-259 | One report line per listed node, in the listed order. |
| CriticalPath.Activities.ReportedRow | CriticalPath.java:346-349 | For a node other than node 0 (durations not negative): EC = early start + cost and LC = maxCost - critCost + cost. Slack is at least 0, and it is 0 if and only if the node lies on a walk costing maxCost. |
| CriticalPath.Activities.RootRow | CriticalPath.java:241-246 | With durations that are not negative, node 0's LC is 0 and its slack is minus its early start, so never positive. The slack is 0 when nothing depends on node 0, and at most minus the early finish of each node that does. |
| Cpm.SlackNonNegative | CriticalPath.java:347 | Early start never exceeds maxCost - critCost. |
| Cpm.CriticalHasNoSlack | CriticalPath.java:347 | A node on a walk that costs maxCost has slack 0. |
| Cpm.NoSlackIsCritical | CriticalPath.java:347 | A node with slack 0 lies on a walk that costs maxCost. |
| Cpm.ZeroSlackIffCritical | CriticalPath.java:347 | Slack is 0 exactly for nodes on a walk that costs maxCost. |
| Scenarios.ChainCritical | CriticalPath.java:76-85 | In the chain A, B, C with costs 3, 4, 5, the critical costs are 3, 7, 12 and the horizon is 12. |
| Scenarios.MutualDependencyIsCyclic | CriticalPath.java:89-91 | Two nodes depending on each other cannot be ranked, so the passes stop. |
| Scenarios.UnresolvedDependencyBlocks | CriticalPath.java:76 | A null dependency can never be done, so the passes stop. |

## Left out

- `parseFile` (lines 119-145) is file I/O and is not part of this model. The run starts from the name list and the list of matrix entries it would produce. Its name-reading test (line 124) asks whether the list contains a boolean, so it never rejects a duplicate name. The model therefore accepts duplicate names.
- The argument check and `System.exit` in `main` (lines 30-33) and the `print` output formatting (lines 254-260) are left out. The printed lines are modelled as `Row` values.
- Java's 32-bit `int` arithmetic is not modelled. Critical costs, horizons and early times are unbounded integers, so sums that would wrap around in Java do not wrap in the model.
- `String.compareTo` compares UTF-16 code units. The model compares Dafny characters, which are Unicode scalar values, by the same rule: first differing character, then length. The two orders agree on names within the Basic Multilingual Plane. They differ once a name holds a supplementary character: "\U{10000}" sorts after "\U{E000}" in the model, while Java puts it first because its leading surrogate 0xD800 is below 0xE000. The order in which `Arrays.sort` leaves equal names is not pinned down: the model's sort is correct for any order of equal names.
- `HashSet` hashing and its iteration order are not modelled. Every set loop other than `MaxCost`'s and the outer loop of `Initials` picks its next element nondeterministically.
- Matrix.ParseArray: Java throws `IndexOutOfBoundsException` partway through the loops when the list of entries is too short. The model checks the length up front and returns `OutOfBounds` without writing anything. The partial writes to the static arrays are never observed, because the exception ends the program.
- CriticalPath.Activities.Initials: the outer loop visits the nodes in index order rather than `HashSet` order. The result is a set, and whether a node is initial does not depend on the order of the visits.
- CriticalPath.Activities.MaxCost: the nodes are visited in index order rather than `HashSet` order. Each node's late times depend only on that node and on maxCost, so the outcome is the same.
- CriticalPath.Activities.SetEarly: the propagation facts are stated only for durations that are not negative. With a negative cost the write guard `compTime >= n.earlyStart` can leave early times that are not the longest-walk ones. The model still runs the same code in that case. For every input it proves which nodes can change, that no early start decreases, and that a changed node's early finish is its early start plus its cost.
- CriticalPath.Activities.CalcEarly: the final-early-times property is stated only for durations that are not negative, for the same reason. What it does to the initial nodes is stated for every input.
- CriticalPath.Activities.CriticalPath: the early times in its result are characterised only for durations that are not negative. Everything else it states holds for every input.
- Cpm.HorizonIsLongestWalk: its second half, that some walk costs exactly maxCost, needs at least one node and durations that are not negative. maxCost starts from -1, so when every critical cost is below -1 (a single node of cost -2, say), or when there are no nodes, maxCost stays -1 and no walk costs that much. The first half, the upper bound, holds for every input and is stated on its own by `Cpm.HorizonBoundsWalks`.
- CriticalPath.Activities.ReportedRow: it covers nodes other than node 0, whose late times are pinned to 0. `CriticalPath.Activities.RootRow` states what node 0's line holds instead.
- Driver.Run: its contract states the failures, the number of lines, their order and their names. The numbers on each line are stated by `ReportedRow` and `RootRow` on the computed schedule.
- `Node.isDependent` is never called in the program. It is modelled as a predicate (`Graph.IsDependent`) whose termination rests on a ranking of the graph. The Java method has no such guard: on a cyclic graph it recurses until the stack overflows, and on a null dependency it throws a `NullPointerException`. The model's ranking requirement excludes both.

=== FILE: cpm.dfy ===
/** What the schedule computation is meant to produce, stated on plain values:
    critical costs, the horizon, late times and early times, and the facts that
    tie them to the longest walks of the dependency graph. */
module Cpm {
  import opened Graph

  ghost predicate Shaped(cost: seq<int>, dependsOn: seq<set<int>>, c: seq<int>)
  {
    |cost| == |dependsOn| == |c|
  }

  /** The total cost of the nodes of `p`. */
  function Sum(cost: seq<int>, p: seq<int>): int
    requires forall k | 0 <= k < |p| :: 0 <= p[k] < |cost|
  {
    if p == [] then 0 else cost[p[0]] + Sum(cost, p[1..])
  }

  lemma {:induction false} SumAppend(cost: seq<int>, p: seq<int>, q: seq<int>)
    requires forall k | 0 <= k < |p| :: 0 <= p[k] < |cost|
    requires forall k | 0 <= k < |q| :: 0 <= q[k] < |cost|
    ensures Sum(cost, p + q) == Sum(cost, p) + Sum(cost, q)
  {
    if p == [] {
      assert p + q == q;
    } else {
      assert (p + q)[0] == p[0] && (p + q)[1..] == p[1..] + q;
      SumAppend(cost, p[1..], q);
    }
  }

  // ---------------------------------------------------------------------------
  // Critical costs

  /** The relaxation rule at node `v`: its critical cost is its own cost plus the
      largest critical cost among its dependencies, where the largest is taken
      starting from 0 (so it is just the cost when there are none). */
  ghost predicate Relaxed(cost: seq<int>, dependsOn: seq<set<int>>, c: seq<int>, v: int)
    requires Shaped(cost, dependsOn, c) && 0 <= v < |c|
  {
    && (forall d | d in dependsOn[v] :: 0 <= d < |c| && c[d] + cost[v] <= c[v])
    && cost[v] <= c[v]
    && (c[v] == cost[v] || exists d | d in dependsOn[v] && 0 <= d < |c| :: c[v] == c[d] + cost[v])
  }

  /** Every node's critical cost obeys the relaxation rule. */
  ghost predicate CritOK(cost: seq<int>, dependsOn: seq<set<int>>, c: seq<int>)
  {
    Shaped(cost, dependsOn, c) && forall v | 0 <= v < |c| :: Relaxed(cost, dependsOn, c, v)
  }

  /** No walk that starts at `v` costs more than `v`'s critical cost. */
  lemma {:induction false} CritBoundsWalks(cost: seq<int>, dependsOn: seq<set<int>>, c: seq<int>, p: seq<int>)
    requires CritOK(cost, dependsOn, c) && Walk(dependsOn, p)
    ensures Sum(cost, p) <= c[p[0]]
  {
    assert Relaxed(cost, dependsOn, c, p[0]);
    if |p| == 1 {
      assert p[1..] == [];
    } else {
      assert Walk(dependsOn, p[1..]);
      CritBoundsWalks(cost, dependsOn, c, p[1..]);
      assert p[1] in dependsOn[p[0]];
    }
  }

  /** Some walk that starts at `v` costs exactly `v`'s critical cost. */
  lemma {:induction false} CritAttained(cost: seq<int>, dependsOn: seq<set<int>>, rank: seq<nat>, c: seq<int>, v: int)
    requires CritOK(cost, dependsOn, c) && Ranked(dependsOn, rank) && 0 <= v < |c|
    ensures exists p :: Walk(dependsOn, p) && p[0] == v && Sum(cost, p) == c[v]
    decreases rank[v]
  {
    assert Relaxed(cost, dependsOn, c, v);
    if c[v] == cost[v] {
      assert Walk(dependsOn, [v]) && Sum(cost, [v]) == c[v];
    } else {
      var d :| d in dependsOn[v] && 0 <= d < |c| && c[v] == c[d] + cost[v];
      CritAttained(cost, dependsOn, rank, c, d);
      var q :| Walk(dependsOn, q) && q[0] == d && Sum(cost, q) == c[d];
      assert ([v] + q)[1..] == q;
      assert Walk(dependsOn, [v] + q) && Sum(cost, [v] + q) == c[v];
    }
  }

  /** On an acyclic closed graph the relaxation rule has one solution: however
      the passes were ordered, the critical costs are the same. */
  lemma CritUnique(cost: seq<int>, dependsOn: seq<set<int>>, rank: seq<nat>, c1: seq<int>, c2: seq<int>)
    requires Ranked(dependsOn, rank) && CritOK(cost, dependsOn, c1) && CritOK(cost, dependsOn, c2)
    ensures c1 == c2
  {
    forall v | 0 <= v < |c1| ensures c1[v] == c2[v] {
      CritAttained(cost, dependsOn, rank, c1, v);
      CritAttained(cost, dependsOn, rank, c2, v);
      var p1 :| Walk(dependsOn, p1) && p1[0] == v && Sum(cost, p1) == c1[v];
      var p2 :| Walk(dependsOn, p2) && p2[0] == v && Sum(cost, p2) == c2[v];
      CritBoundsWalks(cost, dependsOn, c1, p2);
      CritBoundsWalks(cost, dependsOn, c2, p1);
    }
  }

  /** The rule at `v` only looks at `v` and its dependencies. */
  lemma RelaxedFrame(cost: seq<int>, dependsOn: seq<set<int>>, c: seq<int>, c': seq<int>, v: int)
    requires Shaped(cost, dependsOn, c) && Shaped(cost, dependsOn, c') && 0 <= v < |c|
    requires forall d | d in dependsOn[v] :: 0 <= d < |c|
    requires c'[v] == c[v] && forall d | d in dependsOn[v] :: c'[d] == c[d]
    requires Relaxed(cost, dependsOn, c, v)
    ensures Relaxed(cost, dependsOn, c', v)
  {
    if c[v] != cost[v] {
      var d :| d in dependsOn[v] && 0 <= d < |c| && c[v] == c[d] + cost[v];
      assert c'[v] == c'[d] + cost[v];
    }
  }

  /** The state of criticalPath's passes: every node is done or remaining and
      not both, a done node's dependencies are all done, its critical cost obeys
      the relaxation rule, and the order in which nodes became done (recorded
      in `rank`, below `step`) puts every done node after its dependencies. */
  ghost predicate Progress(cost: seq<int>, dependsOn: seq<set<int>>, done: set<int>, remaining: set<int>,
                           c: seq<int>, rank: seq<nat>, step: nat)
  {
    && Shaped(cost, dependsOn, c) && |rank| == |c|
    && done !! remaining
    && (forall v | 0 <= v < |c| :: v in done || v in remaining)
    && (forall v | v in remaining :: 0 <= v < |c|)
    && (forall v | v in done :: 0 <= v < |c| && dependsOn[v] <= done)
    && (forall v | v in done :: Relaxed(cost, dependsOn, c, v))
    && (forall v | v in done :: rank[v] < step)
    && (forall v | v in done :: forall d | d in dependsOn[v] :: rank[d] < rank[v])
  }

  /** Moving a remaining node whose dependencies are all done, with its
      critical cost set from the largest critical cost among them (from 0),
      keeps the pass state. */
  lemma MoveToDone(cost: seq<int>, dependsOn: seq<set<int>>, done: set<int>, remaining: set<int>,
                   c: seq<int>, rank: seq<nat>, step: nat, node: int, crit: int)
    requires Progress(cost, dependsOn, done, remaining, c, rank, step)
    requires node in remaining && dependsOn[node] <= done
    requires 0 <= crit && forall d | d in dependsOn[node] :: c[d] <= crit
    requires crit == 0 || exists d | d in dependsOn[node] :: crit == c[d]
    ensures Progress(cost, dependsOn, done + {node}, remaining - {node},
                     c[node := crit + cost[node]], rank[node := step], step + 1)
  {
    var c' := c[node := crit + cost[node]];
    forall v | v in done ensures Relaxed(cost, dependsOn, c', v) {
      RelaxedFrame(cost, dependsOn, c, c', v);
    }
  }

  /** When nothing remains, the recorded order ranks the graph and every
      critical cost obeys the relaxation rule. */
  lemma ProgressDone(cost: seq<int>, dependsOn: seq<set<int>>, done: set<int>,
                     c: seq<int>, rank: seq<nat>, step: nat)
    requires Progress(cost, dependsOn, done, {}, c, rank, step)
    ensures Ranked(dependsOn, rank) && CritOK(cost, dependsOn, c) && done == Nodes(|c|)
  {
  }

  // ---------------------------------------------------------------------------
  // Horizon and late times

  /** maxCost's result: the largest critical cost, where the search starts from -1. */
  ghost predicate IsHorizon(c: seq<int>, h: int)
  {
    && -1 <= h
    && (forall v | 0 <= v < |c| :: c[v] <= h)
    && (h == -1 || exists v | 0 <= v < |c| :: h == c[v])
  }

  /** The late times after maxCost: horizon-relative for every node, except that
      node 0 (the node whose name is the first declared name object) is pinned
      to 0 / 0. */
  ghost predicate LateOK(cost: seq<int>, c: seq<int>, h: int, lateStart: seq<int>, lateFinish: seq<int>)
  {
    && |cost| == |c| == |lateStart| == |lateFinish|
    && forall v | 0 <= v < |c| :: LateAt(cost, c, h, lateStart, lateFinish, v)
  }

  ghost predicate LateAt(cost: seq<int>, c: seq<int>, h: int, lateStart: seq<int>, lateFinish: seq<int>, v: int)
    requires |cost| == |c| == |lateStart| == |lateFinish| && 0 <= v < |c|
  {
    if v == 0 then lateStart[v] == 0 && lateFinish[v] == 0
    else lateStart[v] == h - c[v] && lateFinish[v] == lateStart[v] + cost[v]
  }

  /** Late start is never negative, and late finish is late start plus the cost. */
  lemma LateTimesBounded(cost: seq<int>, c: seq<int>, h: int, lateStart: seq<int>, lateFinish: seq<int>, v: int)
    requires IsHorizon(c, h) && LateOK(cost, c, h, lateStart, lateFinish)
    requires 0 <= v < |c|
    ensures 0 <= lateStart[v]
    ensures v != 0 ==> lateFinish[v] == lateStart[v] + cost[v]
  {
    assert LateAt(cost, c, h, lateStart, lateFinish, v);
  }

  // ---------------------------------------------------------------------------
  // Early times

  /** The early times at node `x` once propagation is over: its early start is
      the largest early finish among the nodes that list it in their dependsOn
      set, where the largest is taken starting from 0, and its early finish is
      early start plus cost. */
  ghost predicate EarlyAt(cost: seq<int>, dependsOn: seq<set<int>>, es: seq<int>, ef: seq<int>, x: int)
    requires |cost| == |dependsOn| == |es| == |ef| && 0 <= x < |es|
  {
    && ef[x] == es[x] + cost[x]
    && 0 <= es[x]
    && (forall u | 0 <= u < |es| && x in dependsOn[u] :: ef[u] <= es[x])
    && (es[x] == 0 || exists u | 0 <= u < |es| && x in dependsOn[u] :: es[x] == ef[u])
  }

  ghost predicate EarlyOK(cost: seq<int>, dependsOn: seq<set<int>>, es: seq<int>, ef: seq<int>)
  {
    && |cost| == |dependsOn| == |es| == |ef|
    && forall x | 0 <= x < |es| :: EarlyAt(cost, dependsOn, es, ef, x)
  }

  /** An initial node starts at 0 and finishes at its cost. */
  lemma InitialEarly(cost: seq<int>, dependsOn: seq<set<int>>, es: seq<int>, ef: seq<int>, x: int)
    requires EarlyOK(cost, dependsOn, es, ef) && 0 <= x < |es| && IsInitial(dependsOn, x)
    ensures es[x] == 0 && ef[x] == cost[x]
  {
    assert EarlyAt(cost, dependsOn, es, ef, x);
  }

  /** No walk that ends at `x` costs more than `x`'s early finish. */
  lemma {:induction false} EarlyBoundsWalks(cost: seq<int>, dependsOn: seq<set<int>>, es: seq<int>, ef: seq<int>, p: seq<int>)
    requires EarlyOK(cost, dependsOn, es, ef) && Walk(dependsOn, p)
    ensures Sum(cost, p) <= ef[p[|p| - 1]]
  {
    var x := p[|p| - 1];
    assert EarlyAt(cost, dependsOn, es, ef, x);
    assert p == p[..|p| - 1] + [x];
    SumAppend(cost, p[..|p| - 1], [x]);
    if |p| > 1 {
      var u := p[|p| - 2];
      assert Walk(dependsOn, p[..|p| - 1]);
      EarlyBoundsWalks(cost, dependsOn, es, ef, p[..|p| - 1]);
      assert x in dependsOn[u];
    }
  }

  /** Some walk that ends at `x` costs exactly `x`'s early finish. */
  lemma {:induction false} EarlyAttained(cost: seq<int>, dependsOn: seq<set<int>>, rank: seq<nat>,
                                         es: seq<int>, ef: seq<int>, x: int)
    requires EarlyOK(cost, dependsOn, es, ef) && Ranked(dependsOn, rank) && 0 <= x < |es|
    ensures exists p :: Walk(dependsOn, p) && p[|p| - 1] == x && Sum(cost, p) == ef[x]
    decreases RankBound(rank) - rank[x]
  {
    assert EarlyAt(cost, dependsOn, es, ef, x);
    if es[x] == 0 {
      assert Walk(dependsOn, [x]) && Sum(cost, [x]) == ef[x];
    } else {
      var u :| 0 <= u < |es| && x in dependsOn[u] && es[x] == ef[u];
      assert rank[x] < rank[u] <= RankBound(rank);
      EarlyAttained(cost, dependsOn, rank, es, ef, u);
      var q :| Walk(dependsOn, q) && q[|q| - 1] == u && Sum(cost, q) == ef[u];
      SumAppend(cost, q, [x]);
      assert Walk(dependsOn, q + [x]) && (q + [x])[|q + [x]| - 1] == x;
    }
  }

  /** Early times are determined by the graph: the order in which initial nodes
      and dependsOn sets are visited does not matter. */
  lemma EarlyUnique(cost: seq<int>, dependsOn: seq<set<int>>, rank: seq<nat>,
                    es1: seq<int>, ef1: seq<int>, es2: seq<int>, ef2: seq<int>)
    requires Ranked(dependsOn, rank)
    requires EarlyOK(cost, dependsOn, es1, ef1) && EarlyOK(cost, dependsOn, es2, ef2)
    ensures es1 == es2 && ef1 == ef2
  {
    forall x | 0 <= x < |es1| ensures ef1[x] == ef2[x] && es1[x] == es2[x] {
      EarlyAttained(cost, dependsOn, rank, es1, ef1, x);
      EarlyAttained(cost, dependsOn, rank, es2, ef2, x);
      var p1 :| Walk(dependsOn, p1) && p1[|p1| - 1] == x && Sum(cost, p1) == ef1[x];
      var p2 :| Walk(dependsOn, p2) && p2[|p2| - 1] == x && Sum(cost, p2) == ef2[x];
      EarlyBoundsWalks(cost, dependsOn, es1, ef1, p2);
      EarlyBoundsWalks(cost, dependsOn, es2, ef2, p1);
      assert EarlyAt(cost, dependsOn, es1, ef1, x) && EarlyAt(cost, dependsOn, es2, ef2, x);
    }
  }

  // While early times are being propagated, every node is either untouched
  // (the constructor's earlyStart 0, earlyFinish -1) or written (earlyFinish is
  // earlyStart plus cost), and a written early start is 0 or at most the early
  // finish of some node that lists it in its dependsOn set.

  ghost predicate NonNegative(cost: seq<int>)
  {
    forall v | 0 <= v < |cost| :: 0 <= cost[v]
  }

  ghost predicate Untouched(es: seq<int>, ef: seq<int>, x: int)
    requires 0 <= x < |es| == |ef|
  {
    es[x] == 0 && ef[x] == -1
  }

  ghost predicate Written(cost: seq<int>, es: seq<int>, ef: seq<int>, x: int)
    requires 0 <= x < |cost| == |es| == |ef|
  {
    0 <= es[x] && ef[x] == es[x] + cost[x]
  }

  ghost predicate Justified(dependsOn: seq<set<int>>, es: seq<int>, ef: seq<int>, x: int)
    requires 0 <= x < |es| == |ef| == |dependsOn|
  {
    es[x] == 0 || exists u | 0 <= u < |es| && x in dependsOn[u] :: es[x] <= ef[u]
  }

  /** The early finish of `x` has been pushed into every node of its dependsOn set. */
  ghost predicate Pushed(dependsOn: seq<set<int>>, es: seq<int>, ef: seq<int>, x: int)
    requires 0 <= x < |es| == |ef| == |dependsOn|
  {
    forall d | d in dependsOn[x] :: 0 <= d < |es| && ef[x] <= es[d]
  }

  /** Node `x` is written and its early finish has reached every node of its
      dependsOn set. */
  ghost predicate Settled(cost: seq<int>, dependsOn: seq<set<int>>, es: seq<int>, ef: seq<int>, x: int)
    requires 0 <= x < |cost| == |dependsOn| == |es| == |ef|
  {
    Written(cost, es, ef, x) && Pushed(dependsOn, es, ef, x)
  }

  ghost predicate EarlyInv(cost: seq<int>, dependsOn: seq<set<int>>, es: seq<int>, ef: seq<int>)
  {
    && |cost| == |dependsOn| == |es| == |ef|
    && forall x | 0 <= x < |es| ::
         && (Untouched(es, ef, x) || Written(cost, es, ef, x))
         && Justified(dependsOn, es, ef, x)
  }

  /** Before propagation every node is untouched, which satisfies the invariant. */
  lemma UntouchedInv(cost: seq<int>, dependsOn: seq<set<int>>, es: seq<int>, ef: seq<int>)
    requires |cost| == |dependsOn| == |es| == |ef|
    requires forall x | 0 <= x < |es| :: es[x] == 0 && ef[x] == -1
    ensures EarlyInv(cost, dependsOn, es, ef)
  {
    forall x | 0 <= x < |es| ensures Untouched(es, ef, x) && Justified(dependsOn, es, ef, x) {
    }
  }

  /** Early times only grow. */
  ghost predicate Grown(es0: seq<int>, ef0: seq<int>, es: seq<int>, ef: seq<int>)
  {
    && |es0| == |ef0| == |es| == |ef|
    && forall x | 0 <= x < |es| :: es0[x] <= es[x] && ef0[x] <= ef[x]
  }

  /** The write setEarly makes into a node `n` of `v`'s dependsOn set, when the
      incoming finish is at least `n`'s early start, keeps the invariant, makes
      `n` written, and only raises early times. */
  lemma {:induction false} WriteKeepsInv(cost: seq<int>, dependsOn: seq<set<int>>, es: seq<int>, ef: seq<int>,
                                         v: int, n: int)
    requires EarlyInv(cost, dependsOn, es, ef) && NonNegative(cost)
    requires 0 <= v < |es| && 0 <= n < |es| && n in dependsOn[v] && v != n
    requires Written(cost, es, ef, v) && es[n] <= ef[v]
    ensures EarlyInv(cost, dependsOn, es[n := ef[v]], ef[n := ef[v] + cost[n]])
    ensures Written(cost, es[n := ef[v]], ef[n := ef[v] + cost[n]], n)
    ensures Grown(es, ef, es[n := ef[v]], ef[n := ef[v] + cost[n]])
  {
    var es', ef' := es[n := ef[v]], ef[n := ef[v] + cost[n]];
    assert Untouched(es, ef, n) || Written(cost, es, ef, n);
    forall x | 0 <= x < |es'|
      ensures (Untouched(es', ef', x) || Written(cost, es', ef', x)) && Justified(dependsOn, es', ef', x)
    {
      assert Untouched(es, ef, x) || Written(cost, es, ef, x);
      assert Justified(dependsOn, es, ef, x);
      if x == n {
        assert es'[x] <= ef'[v];
      } else if es[x] != 0 {
        var u :| 0 <= u < |es| && x in dependsOn[u] && es[x] <= ef[u];
        assert es'[x] <= ef'[u];
      }
    }
  }

  /** calcEarly's write into an initial node (early start 0, early finish its
      cost) keeps the invariant, makes the node written, and only raises early
      times: nobody lists an initial node, so its early start is still 0. */
  lemma InitialWrite(cost: seq<int>, dependsOn: seq<set<int>>, es: seq<int>, ef: seq<int>, x: int)
    requires EarlyInv(cost, dependsOn, es, ef) && NonNegative(cost)
    requires 0 <= x < |es| && IsInitial(dependsOn, x)
    ensures EarlyInv(cost, dependsOn, es[x := 0], ef[x := cost[x]])
    ensures Written(cost, es[x := 0], ef[x := cost[x]], x)
    ensures Grown(es, ef, es[x := 0], ef[x := cost[x]])
  {
    var es', ef' := es[x := 0], ef[x := cost[x]];
    assert Justified(dependsOn, es, ef, x);
    assert Untouched(es, ef, x) || Written(cost, es, ef, x);
    forall y | 0 <= y < |es'|
      ensures (Untouched(es', ef', y) || Written(cost, es', ef', y)) && Justified(dependsOn, es', ef', y)
    {
      assert Untouched(es, ef, y) || Written(cost, es, ef, y);
      assert Justified(dependsOn, es, ef, y);
      if y != x && es[y] != 0 {
        var u :| 0 <= u < |es| && y in dependsOn[u] && es[y] <= ef[u];
        assert es'[y] <= ef'[u];
      }
    }
  }

  /** What setEarly does to the early times whatever the durations: no early
      start decreases, and a node whose times changed ends with early finish =
      early start + cost. */
  ghost predicate Raised(cost: seq<int>, es0: seq<int>, ef0: seq<int>, es: seq<int>, ef: seq<int>)
  {
    && |cost| == |es0| == |ef0| == |es| == |ef|
    && forall x | 0 <= x < |es| ::
         && es0[x] <= es[x]
         && ((es[x] == es0[x] && ef[x] == ef0[x]) || ef[x] == es[x] + cost[x])
  }

  /** setEarly's guarded write into node `n` (or no write) keeps Raised. */
  lemma RaisedWrite(cost: seq<int>, esIn: seq<int>, efIn: seq<int>,
                    es0: seq<int>, ef0: seq<int>, es1: seq<int>, ef1: seq<int>, n: int)
    requires Raised(cost, esIn, efIn, es0, ef0) && 0 <= n < |es0|
    requires || (es1 == es0 && ef1 == ef0)
             || (|es1| == |es0| && es0[n] <= es1[n] && es1 == es0[n := es1[n]] && ef1 == ef0[n := es1[n] + cost[n]])
    ensures Raised(cost, esIn, efIn, es1, ef1)
  {
  }

  lemma RaisedTransitive(cost: seq<int>, es0: seq<int>, ef0: seq<int>, es1: seq<int>, ef1: seq<int>,
                         es2: seq<int>, ef2: seq<int>)
    requires Raised(cost, es0, ef0, es1, ef1) && Raised(cost, es1, ef1, es2, ef2)
    ensures Raised(cost, es0, ef0, es2, ef2)
  {
    forall x | 0 <= x < |es2|
      ensures (es2[x] == es0[x] && ef2[x] == ef0[x]) || ef2[x] == es2[x] + cost[x]
    {
      if !(es2[x] == es1[x] && ef2[x] == ef1[x]) {
      }
    }
  }

  lemma GrownTransitive(es0: seq<int>, ef0: seq<int>, es1: seq<int>, ef1: seq<int>, es2: seq<int>, ef2: seq<int>)
    requires Grown(es0, ef0, es1, ef1) && Grown(es1, ef1, es2, ef2)
    ensures Grown(es0, ef0, es2, ef2)
  {
  }

  /** With durations that are not negative, a written node stays written while
      early times grow: its early finish can no longer be the untouched -1. */
  lemma StaysWritten(cost: seq<int>, dependsOn: seq<set<int>>, es0: seq<int>, ef0: seq<int>,
                     es: seq<int>, ef: seq<int>, x: int)
    requires NonNegative(cost) && EarlyInv(cost, dependsOn, es, ef) && Grown(es0, ef0, es, ef)
    requires |cost| == |es0| && 0 <= x < |es0| && Written(cost, es0, ef0, x)
    ensures Written(cost, es, ef, x)
  {
    assert Untouched(es, ef, x) || Written(cost, es, ef, x);
  }

  /** A written and pushed node whose own early times did not move stays written
      and pushed while early times grow. */
  lemma StaysPushed(cost: seq<int>, dependsOn: seq<set<int>>, es0: seq<int>, ef0: seq<int>,
                    es: seq<int>, ef: seq<int>, x: int)
    requires |cost| == |dependsOn| == |es0| && Grown(es0, ef0, es, ef) && 0 <= x < |es0|
    requires Written(cost, es0, ef0, x) && Pushed(dependsOn, es0, ef0, x)
    requires es[x] == es0[x] && ef[x] == ef0[x]
    ensures Written(cost, es, ef, x) && Pushed(dependsOn, es, ef, x)
  {
  }

  /** Only `v` and the nodes `v` depends on may have different early times in
      `es`/`ef` than in `es0`/`ef0`. */
  ghost predicate Unmoved(dependsOn: seq<set<int>>, rank: seq<nat>, v: int,
                          es0: seq<int>, ef0: seq<int>, es: seq<int>, ef: seq<int>)
  {
    && Ranked(dependsOn, rank) && 0 <= v < |dependsOn|
    && |es0| == |ef0| == |es| == |ef| == |dependsOn|
    && forall x | 0 <= x < |es| && !IsDependent(dependsOn, rank, v, x) :: es[x] == es0[x] && ef[x] == ef0[x]
  }

  /** Every node of `s` and every node it depends on is in `covered`. */
  ghost predicate DependentsIn(dependsOn: seq<set<int>>, rank: seq<nat>, s: set<int>, covered: set<int>)
    requires Ranked(dependsOn, rank)
  {
    forall d | d in s ::
      && 0 <= d < |dependsOn| && d in covered
      && forall x | 0 <= x < |dependsOn| && IsDependent(dependsOn, rank, d, x) :: x in covered
  }

  lemma DependentsInAdd(dependsOn: seq<set<int>>, rank: seq<nat>, s: set<int>, covered: set<int>, n: int)
    requires Ranked(dependsOn, rank) && DependentsIn(dependsOn, rank, s, covered) && 0 <= n < |dependsOn|
    ensures DependentsIn(dependsOn, rank, s + {n}, covered + {n} + Below(dependsOn, rank, n))
  {
  }

  /** When `v`'s dependsOn set is covered with everything below it, so is
      every node `v` depends on. */
  lemma DependentsInBelow(dependsOn: seq<set<int>>, rank: seq<nat>, v: int, covered: set<int>)
    requires Ranked(dependsOn, rank) && 0 <= v < |dependsOn| && DependentsIn(dependsOn, rank, dependsOn[v], covered)
    ensures forall x | 0 <= x < |dependsOn| && IsDependent(dependsOn, rank, v, x) :: x in covered
  {
    forall x | 0 <= x < |dependsOn| && IsDependent(dependsOn, rank, v, x) ensures x in covered {
      if x !in dependsOn[v] {
        var d :| d in dependsOn[v] && IsDependent(dependsOn, rank, d, x);
      }
    }
  }

  ghost predicate AllSettled(cost: seq<int>, dependsOn: seq<set<int>>, es: seq<int>, ef: seq<int>, s: set<int>)
    requires |cost| == |dependsOn| == |es| == |ef|
  {
    forall y | y in s :: 0 <= y < |es| && Settled(cost, dependsOn, es, ef, y)
  }

  /** A write into `n`, a node `v` lists, followed by changes confined to `n`
      and the nodes `n` depends on, stays within the nodes `v` depends on. */
  lemma UnmovedStep(dependsOn: seq<set<int>>, rank: seq<nat>, v: int, n: int,
                    es0: seq<int>, ef0: seq<int>, es1: seq<int>, ef1: seq<int>,
                    es2: seq<int>, ef2: seq<int>, es3: seq<int>, ef3: seq<int>)
    requires Unmoved(dependsOn, rank, v, es0, ef0, es1, ef1) && n in dependsOn[v]
    requires |es2| == |ef2| == |es1| && forall x | 0 <= x < |es1| && x != n :: es2[x] == es1[x] && ef2[x] == ef1[x]
    requires Unmoved(dependsOn, rank, n, es2, ef2, es3, ef3)
    ensures Unmoved(dependsOn, rank, v, es0, ef0, es3, ef3)
  {
    forall x | 0 <= x < |es3| && !IsDependent(dependsOn, rank, v, x) ensures es3[x] == es0[x] && ef3[x] == ef0[x] {
      DependentThrough(dependsOn, rank, v, n, x);
    }
  }

  /** The state of setEarly's loop on node `v`: the invariant holds, early
      times have only grown since the call began, `v` is written, its early
      finish has reached the visited nodes of its dependsOn set, and the nodes
      of `covered` are settled. */
  ghost predicate Propagating(cost: seq<int>, dependsOn: seq<set<int>>, v: int,
                              esIn: seq<int>, efIn: seq<int>, es: seq<int>, ef: seq<int>,
                              visited: set<int>, covered: set<int>)
  {
    && |cost| == |dependsOn| == |esIn| == |efIn| == |es| == |ef| && 0 <= v < |es|
    && EarlyInv(cost, dependsOn, es, ef)
    && Grown(esIn, efIn, es, ef)
    && Written(cost, es, ef, v)
    && (forall d | d in visited :: 0 <= d < |es| && ef[v] <= es[d])
    && AllSettled(cost, dependsOn, es, ef, covered)
  }

  /** setEarly's test and write on the node `n` of `v`'s dependsOn set. */
  ghost predicate Visit(cost: seq<int>, v: int, n: int, es0: seq<int>, ef0: seq<int>, es1: seq<int>, ef1: seq<int>)
    requires 0 <= v < |ef0| && 0 <= n < |es0| == |ef0| == |cost|
  {
    if ef0[v] >= es0[n] then es1 == es0[n := ef0[v]] && ef1 == ef0[n := ef0[v] + cost[n]]
    else es1 == es0 && ef1 == ef0
  }

  /** After the test and write, `n` is ready for the recursive call. */
  lemma BeforeCall(cost: seq<int>, dependsOn: seq<set<int>>, rank: seq<nat>, v: int, n: int,
                   esIn: seq<int>, efIn: seq<int>, es0: seq<int>, ef0: seq<int>, es1: seq<int>, ef1: seq<int>,
                   visited: set<int>, covered: set<int>)
    requires NonNegative(cost) && Ranked(dependsOn, rank)
    requires Propagating(cost, dependsOn, v, esIn, efIn, es0, ef0, visited, covered)
    requires n in dependsOn[v] && Visit(cost, v, n, es0, ef0, es1, ef1)
    ensures EarlyInv(cost, dependsOn, es1, ef1) && Written(cost, es1, ef1, n)
    ensures Grown(es0, ef0, es1, ef1)
  {
    assert 0 <= n < |es0| && rank[n] < rank[v];
    if ef0[v] >= es0[n] {
      WriteKeepsInv(cost, dependsOn, es0, ef0, v, n);
    } else {
      assert Untouched(es0, ef0, n) || Written(cost, es0, ef0, n);
    }
  }

  /** After setEarly on `n`, preceded by a write confined to `n`: the nodes
      settled before stay settled (the call touched only `n` and the nodes `n`
      depends on, and settled those), and `n` and the nodes it depends on are
      settled too. */
  lemma SettledKept(cost: seq<int>, dependsOn: seq<set<int>>, rank: seq<nat>, n: int,
                    es0: seq<int>, ef0: seq<int>, es1: seq<int>, ef1: seq<int>, es: seq<int>, ef: seq<int>,
                    covered: set<int>)
    requires Ranked(dependsOn, rank) && |cost| == |dependsOn| == |es0| == |ef0| && 0 <= n < |es0|
    requires Grown(es0, ef0, es, ef) && AllSettled(cost, dependsOn, es0, ef0, covered)
    requires |es1| == |ef1| == |es0| && forall x | 0 <= x < |es0| && x != n :: es1[x] == es0[x] && ef1[x] == ef0[x]
    requires Unmoved(dependsOn, rank, n, es1, ef1, es, ef)
    requires Settled(cost, dependsOn, es, ef, n)
    requires forall x | 0 <= x < |es| && IsDependent(dependsOn, rank, n, x) :: Settled(cost, dependsOn, es, ef, x)
    ensures AllSettled(cost, dependsOn, es, ef, covered + {n} + Below(dependsOn, rank, n))
  {
    forall y | y in covered ensures Settled(cost, dependsOn, es, ef, y) {
      if y != n && !IsDependent(dependsOn, rank, n, y) {
        StaysPushed(cost, dependsOn, es0, ef0, es, ef, y);
      }
    }
  }

  /** After the recursive call on `n`: `v` is still written, and `n` and the
      nodes it depends on join the settled nodes, with `n` visited. */
  lemma AfterCall(cost: seq<int>, dependsOn: seq<set<int>>, rank: seq<nat>, v: int, n: int,
                  esIn: seq<int>, efIn: seq<int>, es0: seq<int>, ef0: seq<int>, es1: seq<int>, ef1: seq<int>,
                  es: seq<int>, ef: seq<int>, visited: set<int>, covered: set<int>)
    requires NonNegative(cost) && Ranked(dependsOn, rank)
    requires Propagating(cost, dependsOn, v, esIn, efIn, es0, ef0, visited, covered)
    requires n in dependsOn[v] && Visit(cost, v, n, es0, ef0, es1, ef1)
    requires Grown(es0, ef0, es1, ef1)
    requires EarlyInv(cost, dependsOn, es, ef) && Grown(es1, ef1, es, ef)
    requires Unmoved(dependsOn, rank, n, es1, ef1, es, ef) && ef[v] == ef0[v]
    requires Settled(cost, dependsOn, es, ef, n)
    requires forall x | 0 <= x < |es| && IsDependent(dependsOn, rank, n, x) :: Settled(cost, dependsOn, es, ef, x)
    ensures Propagating(cost, dependsOn, v, esIn, efIn, es, ef, visited + {n}, covered + {n} + Below(dependsOn, rank, n))
  {
    GrownTransitive(es0, ef0, es1, ef1, es, ef);
    GrownTransitive(esIn, efIn, es0, ef0, es, ef);
    StaysWritten(cost, dependsOn, es0, ef0, es, ef, v);
    assert es1[n] == ef0[v] || es1[n] > ef0[v];
    SettledKept(cost, dependsOn, rank, n, es0, ef0, es1, ef1, es, ef, covered);
  }

  /** Once every node is written and pushed, the early times are the final ones. */
  lemma FinalEarly(cost: seq<int>, dependsOn: seq<set<int>>, es: seq<int>, ef: seq<int>)
    requires EarlyInv(cost, dependsOn, es, ef)
    requires forall x | 0 <= x < |es| :: Written(cost, es, ef, x) && Pushed(dependsOn, es, ef, x)
    ensures EarlyOK(cost, dependsOn, es, ef)
  {
    forall x | 0 <= x < |es| ensures EarlyAt(cost, dependsOn, es, ef, x) {
      assert Written(cost, es, ef, x) && Justified(dependsOn, es, ef, x);
      forall u | 0 <= u < |es| && x in dependsOn[u] ensures ef[u] <= es[x] {
        assert Pushed(dependsOn, es, ef, u);
      }
      if es[x] != 0 {
        var u :| 0 <= u < |es| && x in dependsOn[u] && es[x] <= ef[u];
        assert Pushed(dependsOn, es, ef, u);
      }
    }
  }

  // ---------------------------------------------------------------------------
  // Slack

  /** Critical cost plus early start is the cost of the longest walk through
      `x`, so it never exceeds the horizon: every node's horizon-relative late
      start is at least its early start (its slack is not negative). */
  lemma SlackNonNegative(cost: seq<int>, dependsOn: seq<set<int>>, rank: seq<nat>, c: seq<int>,
                         h: int, es: seq<int>, ef: seq<int>, x: int)
    requires Ranked(dependsOn, rank) && CritOK(cost, dependsOn, c) && IsHorizon(c, h)
    requires EarlyOK(cost, dependsOn, es, ef) && 0 <= x < |c|
    ensures es[x] <= h - c[x]
  {
    assert EarlyAt(cost, dependsOn, es, ef, x);
    if es[x] != 0 {
      var u :| 0 <= u < |es| && x in dependsOn[u] && es[x] == ef[u];
      EarlyAttained(cost, dependsOn, rank, es, ef, u);
      var q :| Walk(dependsOn, q) && q[|q| - 1] == u && Sum(cost, q) == ef[u];
      CritAttained(cost, dependsOn, rank, c, x);
      var p :| Walk(dependsOn, p) && p[0] == x && Sum(cost, p) == c[x];
      SumAppend(cost, q, p);
      WalkJoin(dependsOn, q, p);
      CritBoundsWalks(cost, dependsOn, c, q + p);
    }
  }

  /** No walk through `x` costs more than `x`'s early start plus its critical
      cost. */
  lemma WalkThrough(cost: seq<int>, dependsOn: seq<set<int>>, c: seq<int>, es: seq<int>, ef: seq<int>,
                    p: seq<int>, k: int)
    requires CritOK(cost, dependsOn, c) && EarlyOK(cost, dependsOn, es, ef)
    requires Walk(dependsOn, p) && 0 <= k < |p|
    ensures Sum(cost, p) <= es[p[k]] + c[p[k]]
  {
    assert p == p[..k] + p[k..];
    SumAppend(cost, p[..k], p[k..]);
    assert Walk(dependsOn, p[k..]);
    CritBoundsWalks(cost, dependsOn, c, p[k..]);
    assert EarlyAt(cost, dependsOn, es, ef, p[k]);
    if k > 0 {
      assert Walk(dependsOn, p[..k]);
      EarlyBoundsWalks(cost, dependsOn, es, ef, p[..k]);
      assert p[k] in dependsOn[p[k - 1]];
    }
  }

  /** No walk costs more than the horizon, whatever the durations. */
  lemma HorizonBoundsWalks(cost: seq<int>, dependsOn: seq<set<int>>, c: seq<int>, h: int, p: seq<int>)
    requires CritOK(cost, dependsOn, c) && IsHorizon(c, h) && Walk(dependsOn, p)
    ensures Sum(cost, p) <= h
  {
    CritBoundsWalks(cost, dependsOn, c, p);
  }

  /** The horizon is the length of the critical path: no walk costs more, and
      (when there are nodes and no duration is negative) some walk costs
      exactly that much. */
  lemma HorizonIsLongestWalk(cost: seq<int>, dependsOn: seq<set<int>>, rank: seq<nat>, c: seq<int>, h: int)
    requires Ranked(dependsOn, rank) && CritOK(cost, dependsOn, c) && IsHorizon(c, h)
    requires |c| > 0 && NonNegative(cost)
    ensures forall p | Walk(dependsOn, p) :: Sum(cost, p) <= h
    ensures exists p :: Walk(dependsOn, p) && Sum(cost, p) == h
  {
    forall p | Walk(dependsOn, p) ensures Sum(cost, p) <= h {
      HorizonBoundsWalks(cost, dependsOn, c, h, p);
    }
    assert Relaxed(cost, dependsOn, c, 0);
    var v :| 0 <= v < |c| && h == c[v];
    CritAttained(cost, dependsOn, rank, c, v);
  }

  /** A node on a walk as long as the horizon has no slack. */
  lemma CriticalHasNoSlack(cost: seq<int>, dependsOn: seq<set<int>>, rank: seq<nat>, c: seq<int>,
                           h: int, es: seq<int>, ef: seq<int>, p: seq<int>, k: int)
    requires Ranked(dependsOn, rank) && CritOK(cost, dependsOn, c) && IsHorizon(c, h)
    requires EarlyOK(cost, dependsOn, es, ef)
    requires Walk(dependsOn, p) && 0 <= k < |p| && Sum(cost, p) == h
    ensures h - c[p[k]] - es[p[k]] == 0
  {
    SlackNonNegative(cost, dependsOn, rank, c, h, es, ef, p[k]);
    WalkThrough(cost, dependsOn, c, es, ef, p, k);
  }

  lemma SumLast(cost: seq<int>, q: seq<int>)
    requires |q| >= 1 && forall k | 0 <= k < |q| :: 0 <= q[k] < |cost|
    ensures Sum(cost, q) == Sum(cost, q[..|q| - 1]) + cost[q[|q| - 1]]
  {
    assert q == q[..|q| - 1] + [q[|q| - 1]];
    SumAppend(cost, q[..|q| - 1], [q[|q| - 1]]);
    assert Sum(cost, [q[|q| - 1]]) == cost[q[|q| - 1]] + Sum(cost, []);
  }

  lemma WalkPrefix(dependsOn: seq<set<int>>, q: seq<int>, m: int)
    requires Walk(dependsOn, q) && 1 <= m <= |q|
    ensures Walk(dependsOn, q[..m])
  {
  }

  /** A node without slack lies on a walk as long as the horizon. */
  lemma NoSlackIsCritical(cost: seq<int>, dependsOn: seq<set<int>>, rank: seq<nat>, c: seq<int>,
                          h: int, es: seq<int>, ef: seq<int>, x: int) returns (p: seq<int>, k: int)
    requires Ranked(dependsOn, rank) && CritOK(cost, dependsOn, c) && IsHorizon(c, h)
    requires EarlyOK(cost, dependsOn, es, ef) && 0 <= x < |c| && h - c[x] - es[x] == 0
    ensures Walk(dependsOn, p) && 0 <= k < |p| && p[k] == x && Sum(cost, p) == h
  {
    EarlyAttained(cost, dependsOn, rank, es, ef, x);
    var q :| Walk(dependsOn, q) && q[|q| - 1] == x && Sum(cost, q) == ef[x];
    CritAttained(cost, dependsOn, rank, c, x);
    var r :| Walk(dependsOn, r) && r[0] == x && Sum(cost, r) == c[x];
    var front := q[..|q| - 1];
    SumLast(cost, q);
    assert EarlyAt(cost, dependsOn, es, ef, x);
    assert Sum(cost, front) == es[x];
    if |q| == 1 {
      assert front + r == r;
    } else {
      WalkPrefix(dependsOn, q, |q| - 1);
      assert r[0] in dependsOn[front[|front| - 1]];
      WalkJoin(dependsOn, front, r);
    }
    SumAppend(cost, front, r);
    p, k := front + r, |front|;
  }

  /** The zero-slack nodes are exactly the critical activities: those on a walk
      as long as the horizon. */
  lemma ZeroSlackIffCritical(cost: seq<int>, dependsOn: seq<set<int>>, rank: seq<nat>, c: seq<int>,
                             h: int, es: seq<int>, ef: seq<int>, x: int)
    requires Ranked(dependsOn, rank) && CritOK(cost, dependsOn, c) && IsHorizon(c, h)
    requires EarlyOK(cost, dependsOn, es, ef) && 0 <= x < |c|
    ensures h - c[x] - es[x] == 0 <==>
            exists p, k | Walk(dependsOn, p) && 0 <= k < |p| && p[k] == x :: Sum(cost, p) == h
  {
    if p, k :| Walk(dependsOn, p) && 0 <= k < |p| && p[k] == x && Sum(cost, p) == h {
      CriticalHasNoSlack(cost, dependsOn, rank, c, h, es, ef, p, k);
    }
    if h - c[x] - es[x] == 0 {
      var p, k := NoSlackIsCritical(cost, dependsOn, rank, c, h, es, ef, x);
    }
  }
}

=== FILE: critical_path.dfy ===
/** The scheduler itself: the activity nodes with the times the computation
    writes into them, and criticalPath with its helpers. */
module CriticalPath {
  import opened Graph
  import opened Cpm
  import opened NameOrder

  /** One line of the printed report: name, early finish ("EC"), late finish
      ("LC") and slack. */
  datatype Row = Row(name: string, earlyFinish: int, lateFinish: int, slack: int)

  /** What criticalPath hands back: the nodes in report order, or the
      "Negative Cycle" failure it throws. */
  datatype Outcome = Scheduled(sol: seq<int>) | NegativeCycle

  /** done.toArray: the members of a set, in some order. */
  method ToArray(s: set<int>) returns (r: seq<int>)
    ensures multiset(r) == multiset(s)
  {
    r := [];
    var rest := s;
    while rest != {}
      invariant rest <= s
      invariant multiset(r) + multiset(rest) == multiset(s)
      decreases rest
    {
      NonEmpty(rest);
      var x :| x in rest;
      assert multiset(rest) == multiset(rest - {x}) + multiset{x};
      r := r + [x];
      rest := rest - {x};
    }
  }

  /** The nodes of the activity graph. A `Node` object is a position in the
      arena; every field that the computation updates in place is an array
      indexed by node, and the static maxCost is a field of the arena. */
  class Activities {
    const name: seq<string>
    const cost: seq<int>
    const dependsOn: seq<set<int>>
    const critCost: array<int>
    const earlyStart: array<int>
    const earlyFinish: array<int>
    const lateStart: array<int>
    const lateFinish: array<int>
    /** The largest critical cost, which the late times are measured from. */
    var maxCost: int

    ghost predicate Valid()
    {
      && |name| == |cost| == |dependsOn| == critCost.Length == earlyStart.Length
         == earlyFinish.Length == lateStart.Length == lateFinish.Length
      && critCost != earlyStart && critCost != earlyFinish && critCost != lateStart && critCost != lateFinish
      && earlyStart != earlyFinish && earlyStart != lateStart && earlyStart != lateFinish
      && earlyFinish != lateStart && earlyFinish != lateFinish
      && lateStart != lateFinish
    }

    /** The times of a node just built by the Node constructor: everything 0
        except the early finish, which is -1. */
    ghost predicate JustBuilt()
      reads critCost, earlyStart, earlyFinish, lateStart, lateFinish
      requires Valid()
    {
      forall v | 0 <= v < |name| ::
        && critCost[v] == 0 && earlyStart[v] == 0 && earlyFinish[v] == -1
        && lateStart[v] == 0 && lateFinish[v] == 0
    }

    /** `new Node(name, cost)` for every node, with the dependsOn sets the
        assembly loop produced. */
    constructor (name: seq<string>, cost: seq<int>, dependsOn: seq<set<int>>)
      requires |name| == |cost| == |dependsOn|
      ensures Valid() && JustBuilt()
      ensures this.name == name && this.cost == cost && this.dependsOn == dependsOn
      ensures fresh(critCost) && fresh(earlyStart) && fresh(earlyFinish)
      ensures fresh(lateStart) && fresh(lateFinish)
    {
      this.name := name;
      this.cost := cost;
      this.dependsOn := dependsOn;
      critCost := new int[|name|](_ => 0);
      earlyStart := new int[|name|](_ => 0);
      earlyFinish := new int[|name|](_ => -1);
      lateStart := new int[|name|](_ => 0);
      lateFinish := new int[|name|](_ => 0);
      maxCost := 0;
    }

    /** The inner loop of a relaxation step: the largest critical cost among
        the dependencies of `node`, starting from 0. */
    method MaxDepCrit(node: int) returns (crit: int)
      requires Valid() && 0 <= node < |dependsOn|
      requires forall d | d in dependsOn[node] :: 0 <= d < |dependsOn|
      ensures 0 <= crit
      ensures forall d | d in dependsOn[node] :: critCost[d] <= crit
      ensures crit == 0 || exists d | d in dependsOn[node] :: crit == critCost[d]
    {
      crit := 0;
      var todo := dependsOn[node];
      while todo != {}
        invariant todo <= dependsOn[node]
        invariant 0 <= crit
        invariant forall d | d in dependsOn[node] && d !in todo :: critCost[d] <= crit
        invariant crit == 0 || exists d | d in dependsOn[node] :: crit == critCost[d]
        decreases |todo|
      {
        NonEmpty(todo);
        var n :| n in todo;
        todo := todo - {n};
        if critCost[n] > crit {
          crit := critCost[n];
        }
      }
    }

    /** One pass of criticalPath's outer loop: the remaining nodes are visited
        once each, in an order the model leaves open, and every visited node
        whose dependencies are all done by then gets its critical cost and
        moves to done. `progress` tells whether any node moved; when none did,
        every remaining node lists a node that is not done. */
    method Pass(done: set<int>, remaining: set<int>, ghost rank: seq<nat>, ghost step: nat)
      returns (done': set<int>, remaining': set<int>, progress: bool, ghost rank': seq<nat>, ghost step': nat)
      requires Valid() && Progress(cost, dependsOn, done, remaining, critCost[..], rank, step)
      modifies critCost
      ensures Progress(cost, dependsOn, done', remaining', critCost[..], rank', step')
      ensures progress ==> remaining' < remaining
      ensures !progress ==> done' == done && remaining' == remaining
      ensures !progress ==> critCost[..] == old(critCost[..])
      ensures forall v | v in done :: critCost[v] == old(critCost[v])
      ensures forall v | v in remaining' :: critCost[v] == old(critCost[v])
      ensures !progress ==> forall v | v in remaining :: !(dependsOn[v] <= done)
    {
      done', remaining', rank', step' := done, remaining, rank, step;
      progress := false;
      var pass := remaining;
      while pass != {}
        invariant pass <= remaining' <= remaining
        invariant Progress(cost, dependsOn, done', remaining', critCost[..], rank', step')
        invariant progress ==> remaining' < remaining
        invariant !progress ==> done' == done && remaining' == remaining
        invariant !progress ==> critCost[..] == old(critCost[..])
        invariant forall v | v in done :: critCost[v] == old(critCost[v])
        invariant forall v | v in remaining' :: critCost[v] == old(critCost[v])
        invariant !progress ==> forall v | v in remaining - pass :: !(dependsOn[v] <= done)
        decreases pass
      {
        NonEmpty(pass);
        var node :| node in pass;
        pass := pass - {node};
        if dependsOn[node] <= done' {
          var crit := MaxDepCrit(node);
          MoveToDone(cost, dependsOn, done', remaining', critCost[..], rank', step', node, crit);
          critCost[node] := crit + cost[node];
          done' := done' + {node};
          remaining' := remaining' - {node};
          progress := true;
          rank' := rank'[node := step'];
          step' := step' + 1;
        }
      }
    }

    /** The passes of criticalPath: passes repeat while nodes remain, and a
        pass that moves nothing stops the computation. It stops exactly when
        the graph has a cycle or a dependency that is not a node, and otherwise
        leaves critical costs that obey the relaxation rule everywhere, with
        every node done. */
    method Relax() returns (ok: bool, done: set<int>, ghost rank: seq<nat>)
      requires Valid()
      modifies critCost
      ensures ok <==> Acyclic(dependsOn)
      ensures ok ==> Ranked(dependsOn, rank) && CritOK(cost, dependsOn, critCost[..])
      ensures ok ==> done == Nodes(|dependsOn|)
    {
      var n := |dependsOn|;
      done := {};
      var remaining := Nodes(n);
      ghost var step: nat := 0;
      rank := seq(n, _ => 0);
      while remaining != {}
        invariant Progress(cost, dependsOn, done, remaining, critCost[..], rank, step)
        decreases remaining
      {
        var progress;
        done, remaining, progress, rank, step := Pass(done, remaining, rank, step);
        if !progress {
          StuckNotAcyclic(dependsOn, done, remaining);
          return false, done, rank;
        }
      }
      ProgressDone(cost, dependsOn, done, critCost[..], rank, step);
      return true, done, rank;
    }

    /** setLatest: late start is the horizon minus the critical cost, late
        finish is late start plus the cost. */
    method SetLatest(v: int)
      requires Valid() && 0 <= v < |name|
      modifies lateStart, lateFinish
      ensures lateStart[..] == old(lateStart[..])[v := maxCost - critCost[v]]
      ensures lateFinish[..] == old(lateFinish[..])[v := maxCost - critCost[v] + cost[v]]
    {
      lateStart[v] := maxCost - critCost[v];
      lateFinish[v] := lateStart[v] + cost[v];
    }

    /** setLatestStart: both late times become 0. */
    method SetLatestStart(v: int)
      requires Valid() && 0 <= v < |name|
      modifies lateStart, lateFinish
      ensures lateStart[..] == old(lateStart[..])[v := 0]
      ensures lateFinish[..] == old(lateFinish[..])[v := 0]
    {
      lateFinish[v] := 0;
      lateStart[v] := 0;
    }

    /** maxCost: the largest critical cost, searched from -1, becomes the
        horizon; then every node gets its late times from it, and the node whose
        name is the first name object (node 0) is pinned to 0 / 0. The nodes are
        visited in index order, which does not change the outcome. */
    method MaxCost()
      requires Valid()
      modifies this, lateStart, lateFinish
      ensures IsHorizon(critCost[..], maxCost)
      ensures LateOK(cost, critCost[..], maxCost, lateStart[..], lateFinish[..])
    {
      var n := |name|;
      var max := -1;
      for i := 0 to n
        invariant -1 <= max
        invariant forall v | 0 <= v < i :: critCost[v] <= max
        invariant max == -1 || exists v | 0 <= v < i :: max == critCost[v]
      {
        if critCost[i] > max {
          max := critCost[i];
        }
      }
      maxCost := max;
      for i := 0 to n
        invariant maxCost == max
        invariant forall v | 0 <= v < i :: LateAt(cost, critCost[..], maxCost, lateStart[..], lateFinish[..], v)
      {
        ghost var ls0, lf0 := lateStart[..], lateFinish[..];
        SetLatest(i);
        if i == 0 {
          SetLatestStart(i);
        }
        forall v | 0 <= v < i ensures LateAt(cost, critCost[..], maxCost, lateStart[..], lateFinish[..], v) {
          assert LateAt(cost, critCost[..], maxCost, ls0, lf0, v);
        }
      }
    }

    /** initials: the nodes that no node lists in its dependsOn set. */
    method Initials() returns (initNodes: set<int>)
      requires Valid()
      ensures forall x :: x in initNodes <==> 0 <= x < |dependsOn| && IsInitial(dependsOn, x)
    {
      var n := |dependsOn|;
      initNodes := Nodes(n);
      for u := 0 to n
        invariant forall x :: x in initNodes <==> 0 <= x < n && forall w | 0 <= w < u :: x !in dependsOn[w]
      {
        var todo := dependsOn[u];
        while todo != {}
          invariant todo <= dependsOn[u]
          invariant forall x :: x in initNodes <==>
            && 0 <= x < n && (forall w | 0 <= w < u :: x !in dependsOn[w])
            && !(x in dependsOn[u] && x !in todo)
          decreases todo
        {
          NonEmpty(todo);
          var nd :| nd in todo;
          todo := todo - {nd};
          initNodes := initNodes - {nd};
        }
      }
    }

    /** setEarly: the early finish of `initialNode` is pushed into every node of
        its dependsOn set whose early start does not exceed it, and each of them
        is then handled the same way, whether it changed or not. Only
        `initialNode`'s dependencies, direct or not, change; no early start
        ever decreases, and a node whose times changed has early finish = early
        start + cost. With durations that are not negative, the propagation
        invariant is kept, early finishes grow too, and afterwards `initialNode` and every node it depends on are
        settled. */
    method SetEarly(initialNode: int, ghost rank: seq<nat>)
      requires Valid() && Ranked(dependsOn, rank) && 0 <= initialNode < |name|
      requires NonNegative(cost) ==>
        && EarlyInv(cost, dependsOn, earlyStart[..], earlyFinish[..])
        && Written(cost, earlyStart[..], earlyFinish[..], initialNode)
      modifies earlyStart, earlyFinish
      ensures Unmoved(dependsOn, rank, initialNode, old(earlyStart[..]), old(earlyFinish[..]),
                      earlyStart[..], earlyFinish[..])
      ensures Raised(cost, old(earlyStart[..]), old(earlyFinish[..]), earlyStart[..], earlyFinish[..])
      ensures NonNegative(cost) ==>
        && EarlyInv(cost, dependsOn, earlyStart[..], earlyFinish[..])
        && Grown(old(earlyStart[..]), old(earlyFinish[..]), earlyStart[..], earlyFinish[..])
        && Settled(cost, dependsOn, earlyStart[..], earlyFinish[..], initialNode)
        && forall x | 0 <= x < |name| && IsDependent(dependsOn, rank, initialNode, x) ::
             Settled(cost, dependsOn, earlyStart[..], earlyFinish[..], x)
      decreases rank[initialNode]
    {
      DependentRankLower(dependsOn, rank, initialNode, initialNode);
      ghost var esIn, efIn := earlyStart[..], earlyFinish[..];
      var compTime := earlyFinish[initialNode];
      var todo := dependsOn[initialNode];
      ghost var covered: set<int> := {};
      while todo != {}
        invariant todo <= dependsOn[initialNode]
        invariant Unmoved(dependsOn, rank, initialNode, esIn, efIn, earlyStart[..], earlyFinish[..])
        invariant Raised(cost, esIn, efIn, earlyStart[..], earlyFinish[..])
        invariant compTime == earlyFinish[initialNode]
        invariant DependentsIn(dependsOn, rank, dependsOn[initialNode] - todo, covered)
        invariant NonNegative(cost) ==>
          Propagating(cost, dependsOn, initialNode, esIn, efIn, earlyStart[..], earlyFinish[..],
                      dependsOn[initialNode] - todo, covered)
        decreases todo
      {
        NonEmpty(todo);
        var n :| n in todo;
        ghost var todo0 := todo;
        todo := todo - {n};
        assert 0 <= n < |name| && rank[n] < rank[initialNode];
        ghost var es0, ef0 := earlyStart[..], earlyFinish[..];
        if compTime >= earlyStart[n] {
          earlyStart[n] := compTime;
          earlyFinish[n] := compTime + cost[n];
        }
        ghost var es1, ef1 := earlyStart[..], earlyFinish[..];
        assert Visit(cost, initialNode, n, es0, ef0, es1, ef1);
        RaisedWrite(cost, esIn, efIn, es0, ef0, es1, ef1, n);
        if NonNegative(cost) {
          BeforeCall(cost, dependsOn, rank, initialNode, n, esIn, efIn, es0, ef0, es1, ef1,
                     dependsOn[initialNode] - todo0, covered);
        }
        SetEarly(n, rank);
        RaisedTransitive(cost, esIn, efIn, es1, ef1, earlyStart[..], earlyFinish[..]);
        UnmovedStep(dependsOn, rank, initialNode, n, esIn, efIn, es0, ef0, es1, ef1, earlyStart[..], earlyFinish[..]);
        if NonNegative(cost) {
          AfterCall(cost, dependsOn, rank, initialNode, n, esIn, efIn, es0, ef0, es1, ef1,
                    earlyStart[..], earlyFinish[..], dependsOn[initialNode] - todo0, covered);
          assert dependsOn[initialNode] - todo == dependsOn[initialNode] - todo0 + {n};
        }
        DependentsInAdd(dependsOn, rank, dependsOn[initialNode] - todo0, covered, n);
        covered := covered + {n} + Below(dependsOn, rank, n);
        assert dependsOn[initialNode] - todo == dependsOn[initialNode] - todo0 + {n};
      }
      assert dependsOn[initialNode] - todo == dependsOn[initialNode];
      DependentsInBelow(dependsOn, rank, initialNode, covered);
    }

    /** calcEarly: every initial node starts at 0 and finishes at its cost, and
        its early finish is then propagated with setEarly. With durations that
        are not negative, afterwards every node's early times are the final
        ones: its early start is the largest early finish among the nodes that
        list it (0 when none does). */
    method CalcEarly(initialNodes: set<int>, ghost rank: seq<nat>)
      requires Valid() && Ranked(dependsOn, rank)
      requires forall x :: x in initialNodes <==> 0 <= x < |dependsOn| && IsInitial(dependsOn, x)
      requires NonNegative(cost) ==> EarlyInv(cost, dependsOn, earlyStart[..], earlyFinish[..])
      modifies earlyStart, earlyFinish
      ensures forall x | x in initialNodes :: earlyStart[x] == 0 && earlyFinish[x] == cost[x]
      ensures NonNegative(cost) ==> EarlyOK(cost, dependsOn, earlyStart[..], earlyFinish[..])
    {
      var todo := initialNodes;
      ghost var covered: set<int> := {};
      while todo != {}
        invariant todo <= initialNodes
        invariant DependentsIn(dependsOn, rank, initialNodes - todo, covered)
        invariant forall y | y in covered :: 0 <= y < |name| && y !in todo
        invariant forall x | x in initialNodes - todo :: earlyStart[x] == 0 && earlyFinish[x] == cost[x]
        invariant NonNegative(cost) ==>
          && EarlyInv(cost, dependsOn, earlyStart[..], earlyFinish[..])
          && AllSettled(cost, dependsOn, earlyStart[..], earlyFinish[..], covered)
        decreases todo
      {
        NonEmpty(todo);
        var inits :| inits in todo;
        ghost var todo0 := todo;
        todo := todo - {inits};
        ghost var es0, ef0 := earlyStart[..], earlyFinish[..];
        earlyStart[inits] := 0;
        earlyFinish[inits] := cost[inits];
        ghost var es1, ef1 := earlyStart[..], earlyFinish[..];
        if NonNegative(cost) {
          assert es1 == es0[inits := 0] && ef1 == ef0[inits := cost[inits]];
          InitialWrite(cost, dependsOn, es0, ef0, inits);
        }
        SetEarly(inits, rank);
        if NonNegative(cost) {
          GrownTransitive(es0, ef0, es1, ef1, earlyStart[..], earlyFinish[..]);
          SettledKept(cost, dependsOn, rank, inits, es0, ef0, es1, ef1, earlyStart[..], earlyFinish[..], covered);
        }
        forall x | x in initialNodes ensures x !in Below(dependsOn, rank, inits) {
          InitialNotDependent(dependsOn, rank, inits, x);
        }
        DependentsInAdd(dependsOn, rank, initialNodes - todo0, covered, inits);
        covered := covered + {inits} + Below(dependsOn, rank, inits);
        assert initialNodes - todo == initialNodes - todo0 + {inits};
      }
      assert initialNodes - todo == initialNodes;
      forall x | 0 <= x < |name| ensures x in covered {
        ReachedFromInitial(dependsOn, rank, x);
        if IsInitial(dependsOn, x) {
          assert x in initialNodes - todo;
        } else {
          var i :| 0 <= i < |dependsOn| && IsInitial(dependsOn, i) && IsDependent(dependsOn, rank, i, x);
          assert i in initialNodes - todo;
        }
      }
      if NonNegative(cost) {
        forall x | 0 <= x < |name|
          ensures Written(cost, earlyStart[..], earlyFinish[..], x) && Pushed(dependsOn, earlyStart[..], earlyFinish[..], x)
        {
          assert x in covered;
          assert Settled(cost, dependsOn, earlyStart[..], earlyFinish[..], x);
        }
        FinalEarly(cost, dependsOn, earlyStart[..], earlyFinish[..]);
      }
    }

    /** Everything criticalPath establishes when it does not stop: the graph
        is ranked, the critical costs obey the relaxation rule, maxCost is the
        horizon, the late times follow it, and (for durations that are not
        negative) the early times are the final ones. */
    ghost predicate Schedule(rank: seq<nat>)
      reads this, critCost, earlyStart, earlyFinish, lateStart, lateFinish
      requires Valid()
    {
      && Ranked(dependsOn, rank)
      && CritOK(cost, dependsOn, critCost[..])
      && IsHorizon(critCost[..], maxCost)
      && LateOK(cost, critCost[..], maxCost, lateStart[..], lateFinish[..])
      && (NonNegative(cost) ==> EarlyOK(cost, dependsOn, earlyStart[..], earlyFinish[..]))
    }

    /** criticalPath on freshly built nodes: the passes, then maxCost,
        initials, calcEarly, and the done nodes sorted by name. It throws the
        "Negative Cycle" failure exactly when the graph has a cycle or a
        dependency that is not a node; otherwise it returns every node once, in
        name order, with the schedule in place. */
    method CriticalPath() returns (result: Outcome, ghost rank: seq<nat>)
      requires Valid() && JustBuilt()
      modifies this, critCost, earlyStart, earlyFinish, lateStart, lateFinish
      ensures result.NegativeCycle? <==> !Acyclic(dependsOn)
      ensures result.Scheduled? ==>
        && Schedule(rank)
        && SortedByName(name, result.sol)
        && multiset(result.sol) == multiset(Nodes(|name|))
    {
      var ok, done;
      ok, done, rank := Relax();
      if !ok {
        return NegativeCycle, rank;
      }
      MaxCost();
      var initNodes := Initials();
      if NonNegative(cost) {
        UntouchedInv(cost, dependsOn, earlyStart[..], earlyFinish[..]);
      }
      CalcEarly(initNodes, rank);
      var sol := ToArray(done);
      assert Indices(name, sol) by {
        forall k | 0 <= k < |sol| ensures 0 <= sol[k] < |name| {
          assert sol[k] in multiset(done);
        }
      }
      sol := SortByName(name, sol);
      return Scheduled(sol), rank;
    }

    /** toStringArray: the report line of node `v`. */
    function ToStringArray(v: int): Row
      reads earlyStart, earlyFinish, lateStart, lateFinish
      requires Valid() && 0 <= v < |name|
    {
      Row(name[v], earlyFinish[v], lateFinish[v], lateStart[v] - earlyStart[v])
    }

    /** The lines print writes for the nodes of `sol`, in that order. */
    method Lines(sol: seq<int>) returns (rows: seq<Row>)
      requires Valid() && Indices(name, sol)
      ensures |rows| == |sol|
      ensures forall k | 0 <= k < |sol| :: rows[k] == ToStringArray(sol[k])
    {
      rows := [];
      for k := 0 to |sol|
        invariant |rows| == k
        invariant forall m | 0 <= m < k :: rows[m] == ToStringArray(sol[m])
      {
        rows := rows + [ToStringArray(sol[k])];
      }
    }

    /** The report line of node 0, whose late times are pinned to 0: its slack
        is minus its early start, so it is never positive, it is 0 when no node
        depends on node 0, and it is at most minus the early finish of every
        node that does. */
    lemma RootRow(rank: seq<nat>)
      requires Valid() && Schedule(rank) && NonNegative(cost) && 0 < |name|
      ensures ToStringArray(0).lateFinish == 0
      ensures ToStringArray(0).slack == -earlyStart[0] <= 0
      ensures IsInitial(dependsOn, 0) ==> ToStringArray(0).slack == 0
      ensures forall u | 0 <= u < |name| && 0 in dependsOn[u] :: ToStringArray(0).slack <= -earlyFinish[u]
    {
      assert LateAt(cost, critCost[..], maxCost, lateStart[..], lateFinish[..], 0);
      assert EarlyAt(cost, dependsOn, earlyStart[..], earlyFinish[..], 0);
    }

    /** The report line of a node other than node 0, once the schedule is in
        place with durations that are not negative: its early finish is the
        cost of the longest walk that ends at it, its late finish is the
        horizon minus what follows it, and its slack is never negative and is 0
        exactly when the node lies on a walk as long as the horizon. */
    lemma ReportedRow(rank: seq<nat>, v: int)
      requires Valid() && Schedule(rank) && NonNegative(cost) && 0 < v < |name|
      ensures ToStringArray(v).earlyFinish == earlyStart[v] + cost[v]
      ensures ToStringArray(v).lateFinish == maxCost - critCost[v] + cost[v]
      ensures ToStringArray(v).slack >= 0
      ensures ToStringArray(v).slack == 0 <==>
        exists p, k | Walk(dependsOn, p) && 0 <= k < |p| && p[k] == v :: Sum(cost, p) == maxCost
    {
      var c, es, ef := critCost[..], earlyStart[..], earlyFinish[..];
      assert LateAt(cost, c, maxCost, lateStart[..], lateFinish[..], v);
      assert EarlyAt(cost, dependsOn, es, ef, v);
      SlackNonNegative(cost, dependsOn, rank, c, maxCost, es, ef, v);
      ZeroSlackIffCritical(cost, dependsOn, rank, c, maxCost, es, ef, v);
    }
  }
}

=== FILE: driver.dfy ===
/** main once the file has been read: the matrix is decoded, the nodes are
    built and linked, criticalPath runs, and the report lines follow in the
    order they are printed. */
module Driver {
  import opened Matrix
  import opened Graph
  import opened NameOrder
  import opened CriticalPath

  /** How a run ends: the printed report lines, or the exception that stops it
      (reading past the matrix entries, or criticalPath's "Negative Cycle"). */
  datatype Report =
    | Printed(rows: seq<Row>)
    | IndexOutOfBounds
    | NegativeCycleStop

  /** The names in the first column of the report. */
  function RowNames(rows: seq<Row>): (r: seq<string>)
    ensures |r| == |rows| && forall k | 0 <= k < |rows| :: r[k] == rows[k].name
  {
    if rows == [] then [] else [rows[0].name] + RowNames(rows[1..])
  }

  /** The name of node `v`, or the empty name for an index that is no node. */
  function NameAt(names: seq<string>, v: int): string
  {
    if 0 <= v < |names| then names[v] else ""
  }

  /** The names of the nodes listed in `s`. */
  function NamesOf(names: seq<string>, s: seq<int>): seq<string>
  {
    seq(|s|, k requires 0 <= k < |s| => NameAt(names, s[k]))
  }

  lemma NamesOfAppend(names: seq<string>, a: seq<int>, b: seq<int>)
    ensures NamesOf(names, a + b) == NamesOf(names, a) + NamesOf(names, b)
  {
    var l, r := NamesOf(names, a + b), NamesOf(names, a) + NamesOf(names, b);
    assert |l| == |r|;
    forall k | 0 <= k < |l| ensures l[k] == r[k] {
      if k < |a| {
        assert (a + b)[k] == a[k];
      } else {
        assert (a + b)[k] == b[k - |a|];
      }
    }
  }

  /** Position `i` of `t` holds one copy of its entry. */
  lemma SplitAt(t: seq<int>, i: int)
    requires 0 <= i < |t|
    ensures multiset(t) == multiset(t[..i] + t[i + 1..]) + multiset{t[i]}
  {
    assert t == t[..i] + [t[i]] + t[i + 1..];
  }

  lemma Cancel(a: multiset<int>, b: multiset<int>, x: int)
    requires a + multiset{x} == b + multiset{x}
    ensures a == b
  {
    assert a == (a + multiset{x}) - multiset{x};
    assert b == (b + multiset{x}) - multiset{x};
  }

  /** Dropping position `i` of `t` drops one copy of that node's name. */
  lemma NamesOfDropOne(names: seq<string>, t: seq<int>, i: int)
    requires 0 <= i < |t|
    ensures multiset(NamesOf(names, t)) ==
            multiset(NamesOf(names, t[..i] + t[i + 1..])) + multiset{NameAt(names, t[i])}
  {
    var front, back := t[..i], t[i + 1..];
    assert t == front + [t[i]] + back;
    NamesOfAppend(names, front + [t[i]], back);
    NamesOfAppend(names, front, [t[i]]);
    NamesOfAppend(names, front, back);
  }

  /** A position of `x` in `t`. */
  lemma {:induction false} Position(t: seq<int>, x: int) returns (i: int)
    requires x in multiset(t)
    ensures 0 <= i < |t| && t[i] == x
  {
    if t[0] == x {
      i := 0;
    } else {
      assert t == [t[0]] + t[1..];
      assert x in multiset(t[1..]);
      var j := Position(t[1..], x);
      i := j + 1;
    }
  }

  /** Where the first entry of `s` sits in its permutation `t`, and what is
      left of both once it is taken out. */
  lemma MatchFirst(s: seq<int>, t: seq<int>) returns (i: int)
    requires multiset(s) == multiset(t) && s != []
    ensures 0 <= i < |t| && t[i] == s[0]
    ensures multiset(s[1..]) == multiset(t[..i] + t[i + 1..])
  {
    assert s[0] in multiset(s);
    i := Position(t, s[0]);
    SplitAt(t, i);
    SplitAt(s, 0);
    assert s[..0] + s[1..] == s[1..];
    Cancel(multiset(s[1..]), multiset(t[..i] + t[i + 1..]), s[0]);
  }

  /** Listing the same nodes in another order lists the same names. */
  lemma {:induction false} NamesOfPermutation(names: seq<string>, s: seq<int>, t: seq<int>)
    requires multiset(s) == multiset(t)
    ensures multiset(NamesOf(names, s)) == multiset(NamesOf(names, t))
  {
    if s != [] {
      var i := MatchFirst(s, t);
      assert s[..0] + s[1..] == s[1..];
      NamesOfPermutation(names, s[1..], t[..i] + t[i + 1..]);
      NamesOfDropOne(names, t, i);
      NamesOfDropOne(names, s, 0);
    }
  }

  /** 0, 1, ..., n - 1. */
  function Upto(n: nat): seq<int>
  {
    seq(n, k => k)
  }

  lemma {:induction false} UptoNodes(n: nat)
    ensures multiset(Upto(n)) == multiset(Nodes(n))
  {
    if n > 0 {
      var m := n - 1;
      UptoNodes(m);
      assert Upto(n) == Upto(m) + [m];
      AddNew(Nodes(m), m);
      assert Nodes(n) == Nodes(m) + {m};
    }
  }

  lemma AddNew(s: set<int>, x: int)
    requires x !in s
    ensures multiset(s + {x}) == multiset(s) + multiset{x}
  {
  }

  /** Every node appears once in `sol`, so the report names are the declared
      names, each as often as it was declared. */
  lemma ReportNames(names: seq<string>, sol: seq<int>)
    requires multiset(sol) == multiset(Nodes(|names|))
    ensures |sol| == |names|
    ensures multiset(NamesOf(names, sol)) == multiset(names)
  {
    UptoNodes(|names|);
    NamesOfPermutation(names, sol, Upto(|names|));
    assert NamesOf(names, Upto(|names|)) == names;
    assert |multiset(NamesOf(names, sol))| == |sol|;
  }

  /** The report lines of the nodes in `sol`, one per node, named after it:
      when `sol` lists every node once in name order, the report has one line
      per declared name, in name order. */
  lemma RowsInNameOrder(names: seq<string>, sol: seq<int>, rows: seq<Row>)
    requires SortedByName(names, sol) && multiset(sol) == multiset(Nodes(|names|))
    requires |rows| == |sol| && forall k | 0 <= k < |sol| :: rows[k].name == names[sol[k]]
    ensures |rows| == |names|
    ensures forall p, q | 0 <= p < q < |rows| :: NameLe(rows[p].name, rows[q].name)
    ensures multiset(RowNames(rows)) == multiset(names)
  {
    ReportNames(names, sol);
    assert RowNames(rows) == NamesOf(names, sol);
  }

  /** The assembly loop turns what parseArray decoded into exactly the graph
      the matrix describes: no dependency is left unresolved. */
  lemma ParsedGraph(values: seq<int>, n: nat, dependentNodes: seq<seq<nat>>, dependsOn: seq<set<int>>)
    requires n * n <= |values| && |dependentNodes| == n && |dependsOn| == n
    requires n > 0 ==> dependentNodes[0] == []
    requires forall i | 0 < i < n :: dependentNodes[i] == Columns(values, n, i, n)
    requires forall i | 0 <= i < n :: dependsOn[i] == Resolved(n, dependentNodes[i])
    ensures dependsOn == MatrixGraph(values, n)
  {
    forall i | 0 <= i < n ensures dependsOn[i] == EdgeColumns(values, n, i) {
      if i > 0 {
        var cols := Columns(values, n, i, n);
        ColumnsSpec(values, n, i, n);
        forall c ensures c in dependsOn[i] <==> c in EdgeColumns(values, n, i) {
          if c in EdgeColumns(values, n, i) {
            var m :| 0 <= m < |cols| && cols[m] == c;
          }
        }
      }
    }
  }

  /** main from the decoded file on: a run stops reading the matrix exactly
      when it has fewer than n * n entries, stops with "Negative Cycle" exactly
      when the graph the matrix describes has a cycle, and otherwise prints one
      line per declared node, in name order. */
  method Run(names: seq<string>, values: seq<int>) returns (report: Report)
    ensures report.IndexOutOfBounds? <==> |values| < |names| * |names|
    ensures report.NegativeCycleStop? <==>
      |names| * |names| <= |values| && !Acyclic(MatrixGraph(values, |names|))
    ensures report.Printed? ==>
      && |report.rows| == |names|
      && (forall p, q | 0 <= p < q < |report.rows| :: NameLe(report.rows[p].name, report.rows[q].name))
      && multiset(RowNames(report.rows)) == multiset(names)
  {
    var n := |names|;
    var parse := ParseArray(names, values);
    if parse.OutOfBounds? {
      return IndexOutOfBounds;
    }
    var dependsOn := Assemble(n, parse.dependentNodes);
    ParsedGraph(values, n, parse.dependentNodes, dependsOn);
    var activities := new Activities(names, parse.mainVal, dependsOn);
    var result, rank := activities.CriticalPath();
    if result.NegativeCycle? {
      return NegativeCycleStop;
    }
    var rows := activities.Lines(result.sol);
    RowsInNameOrder(names, result.sol, rows);
    return Printed(rows);
  }
}

=== FILE: graph.dfy ===
/** The activity graph as an arena: node `i` is the i-th declared name, and the
    dependsOn set of a node holds node indices. */
module Graph {

  /** The entry left in a dependency list when its name matched no node (Java's `null`). */
  const Null: int := -1

  /** The node whose name is `s`, comparing names by their text: the last one
      when several carry it, Null when none does. */
  function Lookup(names: seq<string>, s: string): (k: int)
    ensures k == Null <==> s !in names
    ensures k != Null ==> 0 <= k < |names| && names[k] == s
    ensures k != Null ==> forall j | k < j < |names| :: names[j] != s
  {
    if |names| == 0 then Null
    else if names[|names| - 1] == s then |names| - 1
    else
      assert names == names[..|names| - 1] + [names[|names| - 1]];
      Lookup(names[..|names| - 1], s)
  }

  /** The dependsOn set that the assembly loop gives a node whose dependencies
      are the name objects `deps` of an `n`-node graph. The loop compares
      references: the name object of column `c` is the name of node `c` and of
      no other node, so it resolves to `c`; anything else stays Null. */
  ghost function Resolved(n: nat, deps: seq<nat>): set<int>
  {
    set m | 0 <= m < |deps| :: if deps[m] < n then deps[m] as int else Null
  }

  /** The node-assembly loop of main: every dependency is resolved by scanning
      all nodes for the one whose name is that very object (the last such node
      wins), and the resolved nodes (or Null) form the node's dependsOn set. */
  method Assemble(n: nat, dependentNodes: seq<seq<nat>>) returns (dependsOn: seq<set<int>>)
    requires |dependentNodes| == n
    ensures |dependsOn| == n
    ensures forall i | 0 <= i < n :: dependsOn[i] == Resolved(n, dependentNodes[i])
  {
    var sets := new set<int>[n](_ => {});
    for i := 0 to n
      invariant forall k | 0 <= k < i :: sets[k] == Resolved(n, dependentNodes[k])
    {
      var deps := dependentNodes[i];
      var nodeList := new int[|deps|](_ => Null);
      for j := 0 to |deps|
        invariant forall m | 0 <= m < j :: nodeList[m] == if deps[m] < n then deps[m] as int else Null
        invariant forall k | 0 <= k < i :: sets[k] == Resolved(n, dependentNodes[k])
      {
        nodeList[j] := Null;
        for k := 0 to n
          invariant nodeList[j] == if deps[j] < k then deps[j] as int else Null
          invariant forall m | 0 <= m < j :: nodeList[m] == if deps[m] < n then deps[m] as int else Null
          invariant forall k | 0 <= k < i :: sets[k] == Resolved(n, dependentNodes[k])
        {
          if deps[j] == k {
            nodeList[j] := k;
          }
        }
      }
      // setDependsOn: add every entry of the list to the node's set
      var dependsOnSet: set<int> := {};
      for m := 0 to nodeList.Length
        invariant dependsOnSet == set m' | 0 <= m' < m :: nodeList[m']
        invariant forall k | 0 <= k < i :: sets[k] == Resolved(n, dependentNodes[k])
      {
        dependsOnSet := dependsOnSet + {nodeList[m]};
      }
      assert dependsOnSet == Resolved(n, deps);
      sets[i] := dependsOnSet;
    }
    dependsOn := sets[..];
  }

  /** Comparing names by text instead of by reference finds the same node for
      every column exactly when the names are distinct. */
  lemma {:induction false} LookupByText(names: seq<string>)
    ensures (forall c | 0 <= c < |names| :: Lookup(names, names[c]) == c) <==>
            (forall p, q | 0 <= p < q < |names| :: names[p] != names[q])
  {
    if forall p, q | 0 <= p < q < |names| :: names[p] != names[q] {
      forall c | 0 <= c < |names| ensures Lookup(names, names[c]) == c {
      }
    } else {
      var p, q :| 0 <= p < q < |names| && names[p] == names[q];
      assert Lookup(names, names[p]) != p;
    }
  }

  /** The nodes of an `n`-node graph. */
  function Nodes(n: nat): (s: set<int>)
    ensures forall v :: v in s <==> 0 <= v < n
  {
    if n == 0 then {} else Nodes(n - 1) + {n - 1}
  }

  /** `rank` strictly decreases along every dependsOn edge, and every edge ends
      at a node: the graph is closed and has no cycle. */
  ghost predicate Ranked(dependsOn: seq<set<int>>, rank: seq<nat>)
  {
    |rank| == |dependsOn| &&
    forall v | 0 <= v < |dependsOn| ::
      forall d | d in dependsOn[v] :: 0 <= d < |dependsOn| && rank[d] < rank[v]
  }

  ghost predicate Acyclic(dependsOn: seq<set<int>>)
  {
    exists rank: seq<nat> :: Ranked(dependsOn, rank)
  }

  lemma OutsideWitness(s: set<int>, t: set<int>) returns (d: int)
    requires !(s <= t)
    ensures d in s && d !in t
  {
    if forall x :: x in s ==> x in t {
      assert false;
    }
    d :| d in s && d !in t;
  }

  /** A non-empty set has a member to pick. */
  lemma NonEmpty(s: set<int>)
    requires s != {}
    ensures exists x :: x in s
  {
    if forall x :: x !in s {
      assert false;
    }
  }

  /** When every remaining node lists some node outside `done`, and every node
      is done or remaining, a rank would have to keep decreasing inside
      `remaining`: no remaining node has a rank of `k` or less. */
  lemma {:induction false} StuckRanks(dependsOn: seq<set<int>>, rank: seq<nat>, done: set<int>, remaining: set<int>, k: nat)
    requires forall v | v in remaining :: 0 <= v < |dependsOn| && !(dependsOn[v] <= done)
    requires forall d | 0 <= d < |dependsOn| :: d in done || d in remaining
    ensures Ranked(dependsOn, rank) ==> forall v | v in remaining :: k < rank[v]
  {
    if Ranked(dependsOn, rank) {
      if k > 0 {
        StuckRanks(dependsOn, rank, done, remaining, k - 1);
      }
      forall v | v in remaining ensures k < rank[v] {
        var d := OutsideWitness(dependsOn[v], done);
        assert d in remaining && rank[d] < rank[v];
      }
    }
  }

  /** A pass over a non-empty `remaining` that can move no node shows the graph
      is not acyclic and closed. */
  lemma StuckNotAcyclic(dependsOn: seq<set<int>>, done: set<int>, remaining: set<int>)
    requires forall v | v in remaining :: 0 <= v < |dependsOn| && !(dependsOn[v] <= done)
    requires forall d | 0 <= d < |dependsOn| :: d in done || d in remaining
    requires remaining != {}
    ensures !Acyclic(dependsOn)
  {
    var v := OutsideWitness(remaining, {});
    forall rank: seq<nat> ensures !Ranked(dependsOn, rank) {
      StuckRanks(dependsOn, rank, done, remaining, if v < |rank| then rank[v] else 0);
    }
  }

  /** Node.isDependent: `x` is reached from `v` along one or more dependsOn edges. */
  predicate IsDependent(dependsOn: seq<set<int>>, ghost rank: seq<nat>, v: int, x: int)
    requires Ranked(dependsOn, rank) && 0 <= v < |dependsOn|
    decreases rank[v]
  {
    x in dependsOn[v] || exists d | d in dependsOn[v] :: IsDependent(dependsOn, rank, d, x)
  }

  /** `p` is a walk along dependsOn edges: a non-empty sequence of nodes, each
      listed in the dependsOn set of the one before it. */
  ghost predicate Walk(dependsOn: seq<set<int>>, p: seq<int>)
  {
    && |p| >= 1
    && (forall k | 0 <= k < |p| :: 0 <= p[k] < |dependsOn|)
    && (forall k | 0 <= k < |p| - 1 :: p[k + 1] in dependsOn[p[k]])
  }

  /** A walk ending at `u`, followed by a walk starting in `u`'s dependsOn set, is a walk. */
  lemma WalkJoin(dependsOn: seq<set<int>>, q: seq<int>, p: seq<int>)
    requires Walk(dependsOn, q) && Walk(dependsOn, p) && p[0] in dependsOn[q[|q| - 1]]
    ensures Walk(dependsOn, q + p)
  {
    var r := q + p;
    forall k | 0 <= k < |r| - 1 ensures r[k + 1] in dependsOn[r[k]] {
      if k < |q| - 1 {
        assert r[k] == q[k] && r[k + 1] == q[k + 1];
      } else if k == |q| - 1 {
        assert r[k] == q[k] && r[k + 1] == p[0];
      } else {
        assert r[k] == p[k - |q|] && r[k + 1] == p[k - |q| + 1];
      }
    }
  }

  /** `p` is a walk of at least one edge from `v` to `x`. */
  ghost predicate PathFromTo(dependsOn: seq<set<int>>, p: seq<int>, v: int, x: int)
  {
    Walk(dependsOn, p) && |p| >= 2 && p[0] == v && p[|p| - 1] == x
  }

  /** isDependent is reachability: it holds exactly when there is a path. */
  lemma {:induction false} IsDependentIffPath(dependsOn: seq<set<int>>, rank: seq<nat>, v: int, x: int)
    requires Ranked(dependsOn, rank) && 0 <= v < |dependsOn|
    ensures IsDependent(dependsOn, rank, v, x) <==> exists p :: PathFromTo(dependsOn, p, v, x)
    decreases rank[v]
  {
    if IsDependent(dependsOn, rank, v, x) {
      if x in dependsOn[v] {
        assert PathFromTo(dependsOn, [v, x], v, x);
      } else {
        var d :| d in dependsOn[v] && IsDependent(dependsOn, rank, d, x);
        IsDependentIffPath(dependsOn, rank, d, x);
        var q :| PathFromTo(dependsOn, q, d, x);
        assert PathFromTo(dependsOn, [v] + q, v, x);
      }
    }
    if p :| PathFromTo(dependsOn, p, v, x) {
      if |p| > 2 {
        var d := p[1];
        assert PathFromTo(dependsOn, p[1..], d, x);
        IsDependentIffPath(dependsOn, rank, d, x);
      }
    }
  }

  /** Every node that `v` depends on, directly or not, is a node of lower rank;
      in particular no node depends on itself. */
  lemma {:induction false} DependentRankLower(dependsOn: seq<set<int>>, rank: seq<nat>, v: int, x: int)
    requires Ranked(dependsOn, rank) && 0 <= v < |dependsOn|
    ensures IsDependent(dependsOn, rank, v, x) ==> 0 <= x < |dependsOn| && rank[x] < rank[v]
    decreases rank[v]
  {
    if IsDependent(dependsOn, rank, v, x) && x !in dependsOn[v] {
      var d :| d in dependsOn[v] && IsDependent(dependsOn, rank, d, x);
      DependentRankLower(dependsOn, rank, d, x);
    }
  }

  /** The nodes `v` depends on, directly or not. */
  ghost function Below(dependsOn: seq<set<int>>, rank: seq<nat>, v: int): (s: set<int>)
    requires Ranked(dependsOn, rank) && 0 <= v < |dependsOn|
    ensures forall x :: x in s <==> 0 <= x < |dependsOn| && IsDependent(dependsOn, rank, v, x)
  {
    set x | 0 <= x < |dependsOn| && IsDependent(dependsOn, rank, v, x)
  }

  /** What a node of `v`'s dependsOn set depends on, `v` depends on too. */
  lemma DependentThrough(dependsOn: seq<set<int>>, rank: seq<nat>, v: int, n: int, x: int)
    requires Ranked(dependsOn, rank) && 0 <= v < |dependsOn| && n in dependsOn[v]
    ensures IsDependent(dependsOn, rank, v, n)
    ensures IsDependent(dependsOn, rank, n, x) ==> IsDependent(dependsOn, rank, v, x)
  {
  }

  lemma {:induction false} DependentTransitive(dependsOn: seq<set<int>>, rank: seq<nat>, a: int, b: int, c: int)
    requires Ranked(dependsOn, rank) && 0 <= a < |dependsOn| && 0 <= b < |dependsOn|
    requires IsDependent(dependsOn, rank, a, b) && IsDependent(dependsOn, rank, b, c)
    ensures IsDependent(dependsOn, rank, a, c)
    decreases rank[a]
  {
    if b !in dependsOn[a] {
      var d :| d in dependsOn[a] && IsDependent(dependsOn, rank, d, b);
      DependentTransitive(dependsOn, rank, d, b, c);
    }
  }

  /** An initial node: no node lists it in its dependsOn set. */
  ghost predicate IsInitial(dependsOn: seq<set<int>>, x: int)
  {
    forall u | 0 <= u < |dependsOn| :: x !in dependsOn[u]
  }

  /** Nothing depends, directly or not, on an initial node. */
  lemma {:induction false} InitialNotDependent(dependsOn: seq<set<int>>, rank: seq<nat>, v: int, x: int)
    requires Ranked(dependsOn, rank) && 0 <= v < |dependsOn| && IsInitial(dependsOn, x)
    ensures !IsDependent(dependsOn, rank, v, x)
    decreases rank[v]
  {
    forall d | d in dependsOn[v] ensures !IsDependent(dependsOn, rank, d, x) {
      InitialNotDependent(dependsOn, rank, d, x);
    }
  }

  function RankBound(rank: seq<nat>): (b: nat)
    ensures forall k | 0 <= k < |rank| :: rank[k] <= b
  {
    if rank == [] then 0
    else
      var b := RankBound(rank[1..]);
      assert forall k | 1 <= k < |rank| :: rank[k] == rank[1..][k - 1];
      if rank[0] > b then rank[0] else b
  }

  /** In an acyclic closed graph every node is initial or is depended upon,
      directly or not, by an initial node. */
  lemma {:induction false} ReachedFromInitial(dependsOn: seq<set<int>>, rank: seq<nat>, x: int)
    requires Ranked(dependsOn, rank) && 0 <= x < |dependsOn|
    ensures IsInitial(dependsOn, x) ||
            exists i | 0 <= i < |dependsOn| :: IsInitial(dependsOn, i) && IsDependent(dependsOn, rank, i, x)
    decreases RankBound(rank) - rank[x]
  {
    if !IsInitial(dependsOn, x) {
      var u :| 0 <= u < |dependsOn| && x in dependsOn[u];
      assert rank[x] < rank[u] <= RankBound(rank);
      ReachedFromInitial(dependsOn, rank, u);
      assert IsDependent(dependsOn, rank, u, x);
      if !IsInitial(dependsOn, u) {
        var i :| 0 <= i < |dependsOn| && IsInitial(dependsOn, i) && IsDependent(dependsOn, rank, i, u);
        DependentTransitive(dependsOn, rank, i, u, x);
      }
    }
  }
}

=== FILE: matrix.dfy ===
/** Decoding of the adjacency matrix: the flat list of matrix entries, read row
    by row, becomes a list of dependency names per row and a cost per column. */
module Matrix {

  /** The matrix entry that means "no edge". */
  const NoEdge: int := -1

  /** What parseArray leaves behind: the dependencies of every row and the cost
      of every column, or the failure of reading past the end of the entry list.
      A dependency is the String object of a column's name; the model identifies
      that object by the column's position in the name list. */
  datatype Parse =
    | Parsed(dependentNodes: seq<seq<nat>>, mainVal: seq<int>)
    | OutOfBounds

  lemma CellInMatrix(n: nat, i: nat, j: nat)
    requires i < n && j < n
    ensures i * n + j < n * n
  {
    var k := n - 1 - i;
    assert n * n == (i + k + 1) * n;
    assert (i + k + 1) * n == i * n + k * n + n;
    assert k * n >= 0;
  }

  /** The running index of row `i`, column `j` names column `j` modulo `n`. */
  lemma CellColumn(n: nat, i: nat, j: nat)
    requires j < n
    ensures (i * n + j) % n == j
  {
    var a := i * n + j;
    var d := a / n - i;
    assert a == (a / n) * n + a % n;
    assert d * n == (a / n) * n - i * n;
    assert d * n == j - a % n;
    assert d >= 1 ==> d * n >= n;
    assert d <= -1 ==> d * n + n <= 0;
  }

  lemma RowEnd(n: nat, i: nat)
    ensures (i + 1) * n == i * n + n
  {
  }

  /** What reading entry `i * n + j` contributes to its row and its column. */
  lemma ReadStep(values: seq<int>, n: nat, i: nat, j: nat)
    requires i < n && j < n && n * n <= |values|
    ensures i * n + j < |values| && (i * n + j) % n == j
    ensures values[i * n + j] == Cell(values, n, i, j)
    ensures LastValue(values, n, j, i + 1) ==
      if Cell(values, n, i, j) != NoEdge then Cell(values, n, i, j) else LastValue(values, n, j, i)
    ensures Cell(values, n, i, j) != NoEdge ==> Columns(values, n, i, j + 1) == Columns(values, n, i, j) + [j]
    ensures Cell(values, n, i, j) == NoEdge ==> Columns(values, n, i, j + 1) == Columns(values, n, i, j)
  {
    CellInMatrix(n, i, j);
    CellColumn(n, i, j);
    assert Columns(values, n, i, j) + [] == Columns(values, n, i, j);
  }

  /** The entry in row `i`, column `j` of the `n` by `n` matrix stored row by row. */
  function Cell(values: seq<int>, n: nat, i: nat, j: nat): int
    requires i < n && j < n && n * n <= |values|
  {
    CellInMatrix(n, i, j);
    values[i * n + j]
  }

  /** The columns before `j` in row `i` that hold an edge, left to right. */
  function Columns(values: seq<int>, n: nat, i: nat, j: nat): (cols: seq<nat>)
    requires i < n && j <= n && n * n <= |values|
    ensures forall k | 0 <= k < |cols| :: cols[k] < j
  {
    if j == 0 then []
    else Columns(values, n, i, j - 1) + (if Cell(values, n, i, j - 1) != NoEdge then [j - 1] else [])
  }

  /** The value of the last of the first `rows` rows whose entry in column `j`
      is an edge, or 0 when there is none. */
  function LastValue(values: seq<int>, n: nat, j: nat, rows: nat): int
    requires j < n && rows <= n && n * n <= |values|
  {
    if rows == 0 then 0
    else if Cell(values, n, rows - 1, j) != NoEdge then Cell(values, n, rows - 1, j)
    else LastValue(values, n, j, rows - 1)
  }

  /** Columns lists exactly the edge columns of the row, in strictly increasing order. */
  lemma {:induction false} ColumnsSpec(values: seq<int>, n: nat, i: nat, j: nat)
    requires i < n && j <= n && n * n <= |values|
    ensures forall p, q | 0 <= p < q < |Columns(values, n, i, j)| ::
              Columns(values, n, i, j)[p] < Columns(values, n, i, j)[q]
    ensures forall c: nat :: c in Columns(values, n, i, j) <==> c < j && Cell(values, n, i, c) != NoEdge
  {
    if j > 0 {
      ColumnsSpec(values, n, i, j - 1);
    }
  }

  /** LastValue is the entry of the last row with an edge in the column, or 0. */
  lemma {:induction false} LastValueSpec(values: seq<int>, n: nat, j: nat, rows: nat)
    requires j < n && rows <= n && n * n <= |values|
    ensures || (LastValue(values, n, j, rows) == 0 &&
                forall r | 0 <= r < rows :: Cell(values, n, r, j) == NoEdge)
            || (exists r | 0 <= r < rows ::
                  && Cell(values, n, r, j) != NoEdge
                  && LastValue(values, n, j, rows) == Cell(values, n, r, j)
                  && forall r' | r < r' < rows :: Cell(values, n, r', j) == NoEdge)
  {
    if rows > 0 && Cell(values, n, rows - 1, j) == NoEdge {
      LastValueSpec(values, n, j, rows - 1);
    }
  }

  /** The dependencies the matrix gives node `i` of an `n`-node graph: the
      columns where row `i` holds an edge, and none at all for row 0. */
  ghost function EdgeColumns(values: seq<int>, n: nat, i: nat): set<int>
    requires i < n && n * n <= |values|
  {
    if i == 0 then {} else set c: int | 0 <= c < n && Cell(values, n, i, c) != NoEdge
  }

  /** The dependsOn sets of the whole graph that the matrix describes. */
  ghost function MatrixGraph(values: seq<int>, n: nat): seq<set<int>>
    requires n * n <= |values|
  {
    seq(n, i requires 0 <= i < n => EdgeColumns(values, n, i))
  }

  /** One pass of parseArray's inner loop: reads row `i` of the matrix, starting
      at entry `index`, collects the row's edge columns and overwrites the value
      of every column that has an edge in this row. */
  method ReadRow(values: seq<int>, n: nat, i: nat, index: nat,
                 dependentNodes: array<seq<nat>>, mainVal: array<int>) returns (next: nat)
    requires i < n && n * n <= |values| && index == i * n
    requires dependentNodes.Length == n && mainVal.Length == n
    requires forall c | 0 <= c < n :: mainVal[c] == LastValue(values, n, c, i)
    modifies dependentNodes, mainVal
    ensures next == (i + 1) * n
    ensures forall k | 0 <= k < n && k != i :: dependentNodes[k] == old(dependentNodes[k])
    ensures dependentNodes[i] == if i == 0 then [] else Columns(values, n, i, n)
    ensures forall c | 0 <= c < n :: mainVal[c] == LastValue(values, n, c, i + 1)
  {
    var mod := n;
    next := index;
    dependentNodes[i] := [];
    for j := 0 to n
      invariant next == i * n + j
      invariant forall k | 0 <= k < n && k != i :: dependentNodes[k] == old(dependentNodes[k])
      invariant dependentNodes[i] == if i == 0 then [] else Columns(values, n, i, j)
      invariant forall c | 0 <= c < j :: mainVal[c] == LastValue(values, n, c, i + 1)
      invariant forall c | j <= c < n :: mainVal[c] == LastValue(values, n, c, i)
    {
      ReadStep(values, n, i, j);
      if values[next] != NoEdge {
        if i != 0 {
          dependentNodes[i] := dependentNodes[i] + [j];
        }
        mainVal[next % mod] := values[next];
      }
      next := next + 1;
    }
    RowEnd(n, i);
  }

  /** parseArray: every row but row 0 receives, in column order, (the names of)
      the columns where it has an edge, and every column receives the value of the
      last edge entry in it (0 when it has none). Reading fewer than n * n
      entries fails. */
  method ParseArray(names: seq<string>, values: seq<int>) returns (r: Parse)
    ensures r.OutOfBounds? <==> |values| < |names| * |names|
    ensures r.Parsed? ==>
      && |r.dependentNodes| == |names| && |r.mainVal| == |names|
      && (|names| > 0 ==> r.dependentNodes[0] == [])
      && (forall i | 0 < i < |names| ::
            r.dependentNodes[i] == Columns(values, |names|, i, |names|))
      && (forall j | 0 <= j < |names| ::
            r.mainVal[j] == LastValue(values, |names|, j, |names|))
  {
    var n := |names|;
    if |values| < n * n {
      return OutOfBounds;
    }
    var index := 0;
    var dependentNodes := new seq<nat>[n](_ => []);
    var mainVal := new int[n](_ => 0);
    for i := 0 to n
      invariant index == i * n
      invariant forall k | 0 <= k < i ::
        dependentNodes[k] == if k == 0 then [] else Columns(values, n, k, n)
      invariant forall c | 0 <= c < n :: mainVal[c] == LastValue(values, n, c, i)
    {
      index := ReadRow(values, n, i, index, dependentNodes, mainVal);
    }
    return Parsed(dependentNodes[..], mainVal[..]);
  }
}

=== FILE: order.dfy ===
/** The order in which the finished schedule is reported: activities sorted by
    name, where names compare like Java's String.compareTo (the first differing
    character decides; a proper prefix sorts first). */
module NameOrder {

  /** `a` sorts no later than `b`. */
  predicate NameLe(a: string, b: string)
  {
    if |a| == 0 then true
    else if |b| == 0 then false
    else if a[0] != b[0] then a[0] < b[0]
    else NameLe(a[1..], b[1..])
  }

  /** An independent description of the same order: `a` is a prefix of `b`, or
      the two agree up to some position where `a` has the smaller character. */
  ghost predicate LexLe(a: string, b: string)
  {
    (|a| <= |b| && a == b[..|a|]) ||
    exists k | 0 <= k < |a| && k < |b| :: a[..k] == b[..k] && a[k] < b[k]
  }

  lemma {:induction false} NameLeIsLexLe(a: string, b: string)
    ensures NameLe(a, b) <==> LexLe(a, b)
  {
    if |a| == 0 {
      assert a == b[..0];
    } else if |b| == 0 {
    } else if a[0] != b[0] {
      if a[0] < b[0] {
        assert a[..0] == b[..0];
      }
      if |a| <= |b| {
        assert b[..|a|][0] == b[0];
      }
      forall k | 0 < k < |a| && k < |b| ensures a[..k] != b[..k] {
        assert a[..k][0] == a[0] && b[..k][0] == b[0];
      }
    } else {
      NameLeIsLexLe(a[1..], b[1..]);
      if LexLe(a[1..], b[1..]) {
        if |a[1..]| <= |b[1..]| && a[1..] == b[1..][..|a[1..]|] {
          assert a == [a[0]] + a[1..];
          assert b[..|a|] == [b[0]] + b[1..][..|a[1..]|];
        } else {
          var k :| 0 <= k < |a[1..]| && k < |b[1..]| && a[1..][..k] == b[1..][..k] && a[1..][k] < b[1..][k];
          assert a[..k + 1] == [a[0]] + a[1..][..k];
          assert b[..k + 1] == [b[0]] + b[1..][..k];
        }
      }
      if LexLe(a, b) {
        if |a| <= |b| && a == b[..|a|] {
          assert a[1..] == b[1..][..|a[1..]|];
        } else {
          var k :| 0 <= k < |a| && k < |b| && a[..k] == b[..k] && a[k] < b[k];
          assert k > 0;
          assert a[1..][..k - 1] == a[..k][1..];
          assert b[1..][..k - 1] == b[..k][1..];
        }
      }
    }
  }

  lemma {:induction false} NameLeTotal(a: string, b: string)
    ensures NameLe(a, b) || NameLe(b, a)
  {
    if |a| > 0 && |b| > 0 && a[0] == b[0] {
      NameLeTotal(a[1..], b[1..]);
    }
  }

  lemma {:induction false} NameLeTransitive(a: string, b: string, c: string)
    requires NameLe(a, b) && NameLe(b, c)
    ensures NameLe(a, c)
  {
    if |a| > 0 && |b| > 0 && |c| > 0 && a[0] == b[0] && b[0] == c[0] {
      NameLeTransitive(a[1..], b[1..], c[1..]);
    }
  }

  lemma {:induction false} NameLeAntisymmetric(a: string, b: string)
    requires NameLe(a, b) && NameLe(b, a)
    ensures a == b
  {
    if |a| > 0 && |b| > 0 {
      NameLeAntisymmetric(a[1..], b[1..]);
      assert a == [a[0]] + a[1..];
      assert b == [b[0]] + b[1..];
    }
  }

  /** Every entry of `s` is the index of a name. */
  ghost predicate Indices(names: seq<string>, s: seq<int>)
  {
    forall k | 0 <= k < |s| :: 0 <= s[k] < |names|
  }

  /** The indices in `s` are in ascending order of their names. */
  ghost predicate SortedByName(names: seq<string>, s: seq<int>)
  {
    Indices(names, s) &&
    forall p, q | 0 <= p < q < |s| :: NameLe(names[s[p]], names[s[q]])
  }

  /** Places `x` in front of the first index of `s` whose name does not sort
      before it. */
  function Insert(names: seq<string>, x: int, s: seq<int>): (r: seq<int>)
    requires 0 <= x < |names| && Indices(names, s)
    ensures Indices(names, r)
    ensures multiset(r) == multiset(s) + multiset{x}
  {
    if s == [] then [x]
    else if NameLe(names[x], names[s[0]]) then [x] + s
    else
      assert s == [s[0]] + s[1..];
      [s[0]] + Insert(names, x, s[1..])
  }

  /** A sorted sequence stays sorted when an index whose name sorts no later
      than all of its names is put in front. */
  lemma LeadSorted(names: seq<string>, y: int, t: seq<int>)
    requires 0 <= y < |names| && SortedByName(names, t)
    requires forall k | 0 <= k < |t| :: NameLe(names[y], names[t[k]])
    ensures SortedByName(names, [y] + t)
  {
    var r := [y] + t;
    forall p, q | 0 <= p < q < |r| ensures NameLe(names[r[p]], names[r[q]]) {
      if p > 0 {
        assert r[p] == t[p - 1] && r[q] == t[q - 1];
      }
    }
  }

  /** Inserting into a sorted sequence keeps it sorted. */
  lemma {:induction false} InsertSorted(names: seq<string>, x: int, s: seq<int>)
    requires 0 <= x < |names| && SortedByName(names, s)
    ensures SortedByName(names, Insert(names, x, s))
  {
    if s == [] {
    } else if NameLe(names[x], names[s[0]]) {
      forall k | 0 <= k < |s| ensures NameLe(names[x], names[s[k]]) {
        if k > 0 { NameLeTransitive(names[x], names[s[0]], names[s[k]]); }
      }
      LeadSorted(names, x, s);
    } else {
      var t := Insert(names, x, s[1..]);
      InsertSorted(names, x, s[1..]);
      assert s == [s[0]] + s[1..];
      NameLeTotal(names[x], names[s[0]]);
      forall k | 0 <= k < |t| ensures NameLe(names[s[0]], names[t[k]]) {
        assert t[k] in multiset(t);
        if t[k] != x {
          assert t[k] in multiset(s[1..]);
          var i :| 0 <= i < |s[1..]| && s[1..][i] == t[k];
          assert s[i + 1] == t[k];
        }
      }
      LeadSorted(names, s[0], t);
    }
  }

  /** Sorts a sequence of name indices by name (Arrays.sort with a name comparator). */
  function SortByName(names: seq<string>, s: seq<int>): (r: seq<int>)
    requires Indices(names, s)
    ensures SortedByName(names, r)
    ensures multiset(r) == multiset(s)
  {
    if s == [] then []
    else
      assert s == [s[0]] + s[1..];
      InsertSorted(names, s[0], SortByName(names, s[1..]));
      Insert(names, s[0], SortByName(names, s[1..]))
  }
}

=== FILE: scenarios.dfy ===
/** Small graphs worked through the schedule's definitions. */
module Scenarios {
  import opened Graph
  import opened Cpm

  /** A chain A <- B <- C with costs 3, 4, 5 (B depends on A, C on B): the
      critical costs are 3, 7 and 12 and the horizon is 12. */
  lemma ChainCritical(c: seq<int>, h: int)
    requires CritOK([3, 4, 5], [{}, {0}, {1}], c)
    ensures c == [3, 7, 12]
    ensures IsHorizon(c, h) ==> h == 12
  {
    var cost: seq<int>, dependsOn: seq<set<int>> := [3, 4, 5], [{}, {0}, {1}];
    assert Relaxed(cost, dependsOn, c, 0);
    assert Relaxed(cost, dependsOn, c, 1);
    assert Relaxed(cost, dependsOn, c, 2);
  }

  /** Two nodes that depend on each other admit no ranking. */
  lemma MutualDependencyIsCyclic()
    ensures !Acyclic([{1}, {0}])
  {
    var g: seq<set<int>> := [{1}, {0}];
    assert 1 in g[0] && 0 in g[1];
  }

  /** A dependency that was never resolved (Java's null) can never be done. */
  lemma UnresolvedDependencyBlocks()
    ensures !Acyclic([{Null}])
  {
    var g: seq<set<int>> := [{Null}];
    assert Null in g[0];
  }
}
